=== FILE: README.md ===
# flowpowered/filesystem — a Dafny model of the resource registry

The library resolves resource identifiers (`scheme://host/path`) to loaded
objects. Three parts make it up:

- **Resource loaders.** A loader serves one scheme and decodes a stream
  into an object. It may also name a *fallback* identifier, which is
  served when a resource of its scheme is missing.
- **Path resolvers.** A resolver opens a stream for a host and a path. It
  reads a directory tree, a directory of `.jar` archives, or a directory
  of `.zip` archives.
- **The registry (`SimpleFileSystem`).** It owns a set of loaders, an
  ordered list of resolvers and a cache of loaded objects. It loads and
  caches resources, substitutes fallbacks and lists directories.

The model has one module per source unit:

| file | module | models |
|---|---|---|
| `types.dfy` | `Types` | Shared values: nullable results (`Option`), the exceptions thrown (`Result`), parsed URIs and URI strings that may not parse, streams and loaded objects. |
| `resource_loader.dfy` | `ResourceLoaders` | `ResourceLoader`: case-insensitive `equals`, the real 32-bit `hashCode`, `toString`. |
| `archives.dfy` | `Archives` | Opening an archive, looking up an entry, and the listing loop shared by both archive resolvers. |
| `jar_resolver.dfy`, `zip_resolver.dfy` | `JarResolver`, `ZipResolver` | The two archive resolvers, including their different null and exception behaviour. |
| `directory_resolver.dfy` | `DirectoryResolver` | `FilePathResolver`, over an abstract file tree. |
| `path_resolver.dfy` | `PathResolvers` | The resolver interface: a resolver object with the URI overloads. |
| `file_system.dfy` | `FileSystems` | The registry, in two layers. The first layer is a set of functions over the registry's fields: `FindLoader`, `AddLoader`, `FirstStream`, `FirstResolver`, `Load`, `Fetch`, `LoadFallback`, `Resources` and `RemoveFirst`. Lemmas state the registry's properties about these functions. The second layer is the class `SimpleFileSystem`: its methods update the fields in place and are proved equal to the functions. |

Modelling choices:

- **Exceptions are results.** Every Java exception is an `Err` value.
  - Unchecked exceptions are modelled where the code really raises them: a
    `NullPointerException` from a null jar or a null file listing, and a
    `StringIndexOutOfBoundsException` from `"".substring(1)`.
  - They pass through `getResource` and `loadFallback` unchanged, because
    those two catch only the three checked exceptions.
- **Failing close.** An `IOException` in `loadResource` can only come from
  closing the stream, so each `Stream` says whether its close fails. The
  cache is written before the close, so the object stays cached even when
  the call throws.
- **Loader order.** The HashSet of loaders is a sequence in iteration
  order. The functions and lemmas hold for any order. The class
  `SimpleFileSystem` appends new loaders, so its sequence is insertion
  order. Java's HashSet iterates by hash bucket instead.
  - `add` follows HashMap's rule: an element is skipped only when an
    element with the same hash code that `equals` it is already present.
  - The hash code is Java's exact 32-bit value.
- **Resolver identity.** Resolvers are objects, so `removePathResolver`
  removes by identity, as `ArrayList.remove` does for classes that do not
  override `equals`.

Where the interface documentation and the code disagree, the model follows
the code:

- **Several loaders per scheme.** `FileSystem.java:43` says there is only
  ever one loader per scheme. `ResourceLoader.equals` ignores case but
  `hashCode` does not, so loaders for `png` and `PNG` are equal and are
  both kept (`FileSystems.CaseVariantSchemesBothRegistered`).
  `FileSystems.AddLoaderKeepsSchemesDistinct` states when uniqueness does
  hold.
- **getResource throws instead of returning null.** `FileSystem.java:100`
  says `getResource` returns null when a missing resource's fallback is
  null. The code throws `IllegalStateException` in that case. It returns
  null only when the fallback is named but not cached
  (`FileSystems.MissingResourceWithoutFallbackFails`,
  `FileSystems.MissingResourceUsesCachedFallback`).

## Model

| member | source | states |
|---|---|---|
| `ResourceLoaders.WithoutFallback` | src/main/java/com/flowpowered/filesystem/ResourceLoader.java:37-44 | The one-argument constructor gives a loader for the scheme with no fallback. |
| `ResourceLoaders.EqualsIgnoreCase` | src/main/java/com/flowpowered/filesystem/ResourceLoader.java:74 | `equalsIgnoreCase` holds exactly when the strings have equal length and equal upper-case characters at every position. |
| `ResourceLoaders.Equals` | src/main/java/com/flowpowered/filesystem/ResourceLoader.java:72-75 | Two loaders are equal exactly when their schemes have the same upper-case form, so equal loaders have schemes of equal length. |
| `ResourceLoaders.EqualsIgnoreCaseIffSameUpperCase` | src/main/java/com/flowpowered/filesystem/ResourceLoader.java:72-75 | `equalsIgnoreCase` holds exactly when the upper-case forms of the two strings are equal. |
| `ResourceLoaders.EqualsIsSchemeEquivalence` | src/main/java/com/flowpowered/filesystem/ResourceLoader.java:72-75 | Two loaders are equal exactly when their schemes agree up to case. Equality is reflexive, symmetric and transitive. |
| `ResourceLoaders.StringHash` | src/main/java/com/flowpowered/filesystem/ResourceLoader.java:84 | `String.hashCode`, read as an unsigned 32-bit value, is below 2^32. |
| `ResourceLoaders.HashCode` | src/main/java/com/flowpowered/filesystem/ResourceLoader.java:82-85 | The hash is a 32-bit int congruent to 17·37 + `scheme.hashCode()` modulo 2^32. |
| `ResourceLoaders.CaseVariantsEqualButHashDiffer` | src/main/java/com/flowpowered/filesystem/ResourceLoader.java:72-85 | Loaders for "png" and "PNG" are equal but have different hash codes, so `equals` and `hashCode` are inconsistent. |
| `ResourceLoaders.ToString` | src/main/java/com/flowpowered/filesystem/ResourceLoader.java:77-80 | The text is "ResourceLoader(", then the scheme, then ")". The scheme can be read back from it. |
| `Archives.Open` | src/main/java/com/flowpowered/filesystem/resolver/JarFilePathResolver.java:54-60 | Opening an archive file gives null when the file is absent and IOException when it does not open. Otherwise it gives exactly the archive's entries. |
| `Archives.Lookup` | src/main/java/com/flowpowered/filesystem/resolver/JarFilePathResolver.java:95 | `getJarEntry` returns null exactly when no entry has that name. Otherwise it returns an entry with exactly that name. |
| `Archives.Listing` | src/main/java/com/flowpowered/filesystem/resolver/JarFilePathResolver.java:120-131 | A listing has at most one name per entry. A listing as long as the archive means every entry was listed. |
| `Archives.ListingAppend` | src/main/java/com/flowpowered/filesystem/resolver/JarFilePathResolver.java:123-131 | Enumeration order is kept: the listing of a concatenation of entries is the concatenation of their listings. |
| `Archives.ListingExactly` | src/main/java/com/flowpowered/filesystem/resolver/JarFilePathResolver.java:120-131 | A listing has at most one name per entry. Each name is a non-directory entry's name with the path prefix removed. Every such entry appears. |
| `Archives.ListResult` | src/main/java/com/flowpowered/filesystem/resolver/JarFilePathResolver.java:112-145 | `list` returns null exactly when opening throws IOException. It throws IllegalArgumentException exactly when the archive is missing. For an archive that opens, an empty path throws StringIndexOutOfBoundsException and any other path gives the listing under `path[1..]`. |
| `Archives.ListEntries` | src/main/java/com/flowpowered/filesystem/resolver/JarFilePathResolver.java:123-131 | The loop over the entries computes exactly the listing. |
| `JarResolver.GetJar` | src/main/java/com/flowpowered/filesystem/resolver/JarFilePathResolver.java:54-60 | `getJar(host)` opens `host.jar`, with null when it is absent and IOException when it is unreadable. |
| `JarResolver.ExistsInPath` | src/main/java/com/flowpowered/filesystem/resolver/JarFilePathResolver.java:62-86 | True exactly when `host.jar` opens and has an entry named `path[1..]`. A jar that fails to open gives false. StringIndexOutOfBoundsException is thrown exactly for an empty path when the jar does not fail to open. A missing jar throws NullPointerException exactly when the path is non-empty. |
| `JarResolver.GetStream` | src/main/java/com/flowpowered/filesystem/resolver/JarFilePathResolver.java:88-109 | A stream is returned exactly when `existsInPath` is true, and it is the data of an entry with that name. The call throws exactly when the jar opens and the path is empty. |
| `JarResolver.List` | src/main/java/com/flowpowered/filesystem/resolver/JarFilePathResolver.java:111-150 | The method's loop gives exactly `Archives.ListResult` of the opened jar. |
| `JarResolver.ListedNamesResolve` | src/main/java/com/flowpowered/filesystem/resolver/JarFilePathResolver.java:62-145 | Every name `list` reports exists, and has a stream, at `path + name`. |
| `ZipResolver.GetZip` | src/main/java/com/flowpowered/filesystem/resolver/ZipFilePathResolver.java:51-57 | `getZip(host)` opens `host.zip`, with null when it is absent and IOException when it is unreadable. |
| `ZipResolver.ExistsInPath` | src/main/java/com/flowpowered/filesystem/resolver/ZipFilePathResolver.java:59-81 | True exactly when `host.zip` opens and has an entry named `path[1..]`. A missing zip gives false before the path is read. Only an empty path with an existing zip throws. |
| `ZipResolver.GetStream` | src/main/java/com/flowpowered/filesystem/resolver/ZipFilePathResolver.java:83-99 | A stream is returned exactly when `existsInPath` is true, and it is the data of an entry with that name. It throws exactly when `existsInPath` throws. |
| `ZipResolver.List` | src/main/java/com/flowpowered/filesystem/resolver/ZipFilePathResolver.java:101-135 | The method's loop gives exactly `Archives.ListResult` of the opened zip. |
| `ZipResolver.ListingHasNoDirectories` | src/main/java/com/flowpowered/filesystem/resolver/ZipFilePathResolver.java:113-121 | A listing is no longer than the archive. Every name comes from a non-directory entry whose name is the path prefix followed by the name. |
| `ZipResolver.ListedNamesResolve` | src/main/java/com/flowpowered/filesystem/resolver/ZipFilePathResolver.java:59-135 | Every name `list` reports exists, and has a stream, at `path + name`. |
| `DirectoryResolver.GetStream` | src/main/java/com/flowpowered/filesystem/resolver/FilePathResolver.java:55-62 | A stream is returned exactly for an existing regular file, and it is that file's content. A missing file or a directory gives null. |
| `DirectoryResolver.ExistsInPath` | src/main/java/com/flowpowered/filesystem/resolver/FilePathResolver.java:45-48 | `File.exists()` for the (host, path) pair. It holds exactly when `getStream` opens a stream (a regular file) or `list` returns a listing (a directory). |
| `DirectoryResolver.FileNames` | src/main/java/com/flowpowered/filesystem/resolver/FilePathResolver.java:72-77 | The names are exactly those of the children that are files, and there is at most one per child. |
| `DirectoryResolver.List` | src/main/java/com/flowpowered/filesystem/resolver/FilePathResolver.java:69-79 | A directory lists its regular files. Anything else throws NullPointerException. |
| `PathResolvers.ExistsInPath` | src/main/java/com/flowpowered/filesystem/resolver/ResourcePathResolver.java:37-45 | NullPointerException comes only from the JAR resolver. StringIndexOutOfBoundsException needs an archive resolver and an empty path. The directory resolver never throws. |
| `PathResolvers.GetStream` | src/main/java/com/flowpowered/filesystem/resolver/ResourcePathResolver.java:54-62 | A resolver gives a stream only for a resource it says exists. It throws only on an empty path with an archive resolver. |
| `PathResolvers.ListResult` | src/main/java/com/flowpowered/filesystem/resolver/ResourcePathResolver.java:71-79 | Only an archive resolver lists null. The only exceptions are IllegalArgumentException, StringIndexOutOfBoundsException and NullPointerException. |
| `PathResolvers.List` | src/main/java/com/flowpowered/filesystem/resolver/ResourcePathResolver.java:79 | Running each resolver's listing loop gives `ListResult`. |
| `PathResolvers.PathResolver.constructor` | src/main/java/com/flowpowered/filesystem/resolver/JarFilePathResolver.java:44-52 | A new resolver object keeps the backend (the directory and its kind) it was given. Resolvers compare by identity. |
| `FileSystems.FindLoader` | src/main/java/com/flowpowered/filesystem/SimpleFileSystem.java:72-80 | Gives null exactly when no loader's scheme equals the requested one ignoring case. Otherwise it gives a registered loader whose scheme matches. |
| `FileSystems.FindLoaderIsTheMatch` | src/main/java/com/flowpowered/filesystem/FileSystem.java:42-48 | When schemes are distinct ignoring case, `getLoader` returns the one matching loader whatever the iteration order. |
| `FileSystems.AddLoader` | src/main/java/com/flowpowered/filesystem/SimpleFileSystem.java:85 | `add` leaves the set unchanged exactly when some element has the same hash code and `equals` the new loader. Otherwise the loader is appended. |
| `FileSystems.AddLoaderKeepsAndServes` | src/main/java/com/flowpowered/filesystem/SimpleFileSystem.java:82-87 | Adding a loader never removes or replaces one and adds at most one. Afterwards some loader serves the new loader's scheme. |
| `FileSystems.AddLoaderSameSchemeIsNoOp` | src/main/java/com/flowpowered/filesystem/SimpleFileSystem.java:85 | A loader whose exact scheme is already registered is not added, so adding twice equals adding once. |
| `FileSystems.AddLoaderKeepsSchemesDistinct` | src/main/java/com/flowpowered/filesystem/SimpleFileSystem.java:85 | Schemes stay distinct ignoring case whenever the equal loaders already present hash like the new one. |
| `FileSystems.CaseVariantSchemesBothRegistered` | src/main/java/com/flowpowered/filesystem/SimpleFileSystem.java:47-85 | Adding "PNG" to a set holding "png" keeps both, although the two loaders are equal. |
| `FileSystems.FirstStream` | src/main/java/com/flowpowered/filesystem/SimpleFileSystem.java:89-99 | `getResourceStream` throws only ResourceNotFoundException, or StringIndexOutOfBoundsException from a resolver. |
| `FileSystems.FirstStreamIsFirstHit` | src/main/java/com/flowpowered/filesystem/SimpleFileSystem.java:89-99 | The outcome is that of the first resolver that does not return null. ResourceNotFoundException is thrown exactly when every resolver returns null. |
| `FileSystems.AppendedResolverComesLast` | src/main/java/com/flowpowered/filesystem/SimpleFileSystem.java:230-233 | An added resolver is consulted only when every earlier resolver returns null. |
| `FileSystems.FirstResolver` | src/main/java/com/flowpowered/filesystem/SimpleFileSystem.java:192-199 | Gives the first resolver in which the uri exists, with all earlier ones saying it does not. Gives null exactly when no resolver has the uri. |
| `FileSystems.FirstResolverIsFirstHit` | src/main/java/com/flowpowered/filesystem/SimpleFileSystem.java:192-199 | The first resolver whose `existsInPath` is not false decides the outcome: that resolver when it says true, its exception when it throws. |
| `FileSystems.RemoveFirst` | src/main/java/com/flowpowered/filesystem/SimpleFileSystem.java:237 | Removal takes exactly one occurrence of the resolver out of the list, if there is one, and nothing else. |
| `FileSystems.RemoveFirstDeletesFirstOccurrence` | src/main/java/com/flowpowered/filesystem/SimpleFileSystem.java:235-238 | Removal deletes exactly the first occurrence and keeps the others in order. |
| `FileSystems.RemoveFirstAbsent` | src/main/java/com/flowpowered/filesystem/SimpleFileSystem.java:237 | Removing an unregistered resolver leaves the list unchanged. |
| `FileSystems.Load` | src/main/java/com/flowpowered/filesystem/SimpleFileSystem.java:110-129 | See the three items after this table. |
| `FileSystems.Fetch` | src/main/java/com/flowpowered/filesystem/SimpleFileSystem.java:149-181 | A cached uri is answered from the cache with nothing changed. For an uncached uri, a missing loader gives IllegalArgumentException with the cache unchanged, and a successful load gives the loaded object and the cache `loadResource` leaves. LoaderNotFoundException and IOException become IllegalArgumentException with that cache. IllegalStateException from a null `load` and StringIndexOutOfBoundsException pass through unchanged, also with that cache. No existing entry is ever changed, and only the requested uri can be added. Only IllegalArgumentException, IllegalStateException and StringIndexOutOfBoundsException escape. The "loader is never null" assumption holds. |
| `FileSystems.SecondFetchIsCacheHit` | src/main/java/com/flowpowered/filesystem/SimpleFileSystem.java:149-158 | After a successful load, the next `getResource` returns the same object from the cache. |
| `FileSystems.CloseFailureStillCaches` | src/main/java/com/flowpowered/filesystem/SimpleFileSystem.java:121-164 | When closing the stream fails, `getResource` throws IllegalArgumentException. The object is still cached and the next call returns it. |
| `FileSystems.MissingResourceUsesCachedFallback` | src/main/java/com/flowpowered/filesystem/SimpleFileSystem.java:165-179 | A resource no resolver has is answered by the cached fallback object, or null if none is cached, and the cache is unchanged. With the fallback cached, this equals `getResource(fallback)`. |
| `FileSystems.MissingResourceWithoutFallbackFails` | src/main/java/com/flowpowered/filesystem/SimpleFileSystem.java:168-171 | With no fallback, a missing resource throws IllegalStateException and the cache is unchanged. |
| `FileSystems.MissingResourceWithMalformedFallbackFails` | src/main/java/com/flowpowered/filesystem/SimpleFileSystem.java:173-178 | A fallback that does not parse makes a missing resource throw IllegalStateException, and the cache is unchanged. |
| `FileSystems.FallbackError` | src/main/java/com/flowpowered/filesystem/SimpleFileSystem.java:57-63 | No loader or no resource becomes IllegalArgumentException. An IOException becomes IllegalStateException. Other exceptions pass unchanged. No checked exception comes out. |
| `FileSystems.LoadFallback` | src/main/java/com/flowpowered/filesystem/SimpleFileSystem.java:52-65 | See the item on `LoadFallback` after this table. |
| `FileSystems.FallbackReloadReplacesCachedObject` | src/main/java/com/flowpowered/filesystem/SimpleFileSystem.java:52-65 | Loading a fallback always reloads it: the fallback's entry becomes the object the loader decodes from the first resolver's stream, even when it was cached before. Registration then succeeds, or throws IllegalStateException when closing the stream fails. |
| `FileSystems.FallbackFailuresBecomeUnchecked` | src/main/java/com/flowpowered/filesystem/SimpleFileSystem.java:52-65 | A fallback with no loader, or that no resolver finds, makes registration throw IllegalArgumentException with the cache unchanged. A successful registration caches only the fallback. |
| `FileSystems.RegisteredFallbackAnswersMisses` | src/main/java/com/flowpowered/filesystem/SimpleFileSystem.java:82-87 | Once `registerLoader(l)` has loaded `l`'s fallback, a missing resource served by `l` gets the fallback object. |
| `FileSystems.Child` | src/main/java/com/flowpowered/filesystem/SimpleFileSystem.java:211 | A listed name's identifier keeps the scheme and host and extends the path by the name. |
| `FileSystems.FetchAll` | src/main/java/com/flowpowered/filesystem/SimpleFileSystem.java:209-213 | The loop returns one result per name after those already collected. Only the exceptions `getResource` throws escape. |
| `FileSystems.FetchAllShape` | src/main/java/com/flowpowered/filesystem/SimpleFileSystem.java:209-213 | The loop returns one result per name after those already collected. It changes no cache entry and adds only listed identifiers. |
| `FileSystems.FetchAllSplit` | src/main/java/com/flowpowered/filesystem/SimpleFileSystem.java:210-212 | Running the loop over two lists of names one after the other equals running it over their concatenation. |
| `FileSystems.FetchAllElement` | src/main/java/com/flowpowered/filesystem/SimpleFileSystem.java:210-212 | Result `k` of the loop is `getResource` of the `k`-th name in the cache the first `k` names left behind. That cache keeps every entry of the starting cache. |
| `FileSystems.FetchAllInOrder` | src/main/java/com/flowpowered/filesystem/SimpleFileSystem.java:209-213 | The results follow the listing order: result `k` is `getResource` of the `k`-th name after the earlier names. A name cached before the loop gets its cached object. |
| `FileSystems.FetchAllOnePerName` | src/main/java/com/flowpowered/filesystem/SimpleFileSystem.java:209-213 | A loop that succeeds from an empty result list returns one object per name. Object `k` is `getResource` of the `k`-th name in the cache the earlier names left. A name cached before the loop gets its cached object. |
| `FileSystems.Resources` | src/main/java/com/flowpowered/filesystem/SimpleFileSystem.java:201-213 | When no resolver has the uri, `getResources` throws IllegalArgumentException and changes nothing. An exception from `getPathResolver` or from `list` is thrown unchanged, and a null listing throws NullPointerException; the cache stays as it was in each case. A listing is handed to the loop over its names. |
| `FileSystems.FetchAllStopsAtFirstFailure` | src/main/java/com/flowpowered/filesystem/SimpleFileSystem.java:210-212 | When the first `k` names succeed and `getResource` of name `k` throws, the loop throws that exception and leaves that call's cache. |
| `FileSystems.FetchAllSucceedsWhenEveryFetchDoes` | src/main/java/com/flowpowered/filesystem/SimpleFileSystem.java:210-212 | The loop succeeds exactly when `getResource` succeeds on every name in turn, each in the cache the earlier names left behind. |
| `FileSystems.ResourcesOnePerListedName` | src/main/java/com/flowpowered/filesystem/SimpleFileSystem.java:201-214 | No cache entry changes, whether the call succeeds or throws. A successful `getResources` returns one object per name that the first existing resolver lists. Object `k` is what `getResource` gives for the `k`-th name in the cache the earlier names left behind. A name already cached gets its cached object. |
| `FileSystems.SimpleFileSystem.constructor` | src/main/java/com/flowpowered/filesystem/SimpleFileSystem.java:47-49 | A new registry has no loaders, no resolvers and an empty cache. |
| `FileSystems.SimpleFileSystem.GetLoader` | src/main/java/com/flowpowered/filesystem/SimpleFileSystem.java:72-80 | The loop returns `FindLoader`. |
| `FileSystems.SimpleFileSystem.RegisterLoader` | src/main/java/com/flowpowered/filesystem/SimpleFileSystem.java:82-87 | The loader set becomes `AddLoader`, even when loading the fallback then throws. The cache and result are `LoadFallback` on the new set. |
| `FileSystems.SimpleFileSystem.LoadFallbackNow` | src/main/java/com/flowpowered/filesystem/SimpleFileSystem.java:52-65 | Through `loadResource(String)`, the result and the cache are `LoadFallback`. |
| `FileSystems.SimpleFileSystem.GetResourceStream` | src/main/java/com/flowpowered/filesystem/SimpleFileSystem.java:89-99 | The loop over the resolvers returns `FirstStream`. |
| `FileSystems.SimpleFileSystem.GetResourceStreamText` | src/main/java/com/flowpowered/filesystem/SimpleFileSystem.java:101-108 | A malformed string throws IllegalArgumentException. Otherwise it is `FirstStream`. |
| `FileSystems.SimpleFileSystem.LoadResource` | src/main/java/com/flowpowered/filesystem/SimpleFileSystem.java:110-129 | The result and the new cache are `Load` of the old cache. |
| `FileSystems.SimpleFileSystem.LoadResourceText` | src/main/java/com/flowpowered/filesystem/SimpleFileSystem.java:131-138 | A malformed string throws IllegalArgumentException and leaves the cache alone. Otherwise it is `Load`. |
| `FileSystems.SimpleFileSystem.GetResource` | src/main/java/com/flowpowered/filesystem/SimpleFileSystem.java:149-181 | The result and the new cache are `Fetch` of the old cache. |
| `FileSystems.SimpleFileSystem.GetResourceText` | src/main/java/com/flowpowered/filesystem/SimpleFileSystem.java:183-190 | A malformed string throws IllegalArgumentException and leaves the cache alone. Otherwise it is `Fetch`. |
| `FileSystems.SimpleFileSystem.GetPathResolver` | src/main/java/com/flowpowered/filesystem/SimpleFileSystem.java:192-199 | The loop returns `FirstResolver`. |
| `FileSystems.SimpleFileSystem.GetResources` | src/main/java/com/flowpowered/filesystem/SimpleFileSystem.java:201-214 | The result and the new cache are `Resources` of the old cache. Each listed name goes through `getResource`. |
| `FileSystems.SimpleFileSystem.GetResourcesText` | src/main/java/com/flowpowered/filesystem/SimpleFileSystem.java:216-223 | A malformed string throws IllegalArgumentException and leaves the cache alone. Otherwise it is `Resources`. |
| `FileSystems.SimpleFileSystem.AddPathResolver` | src/main/java/com/flowpowered/filesystem/SimpleFileSystem.java:230-233 | The resolver is appended. For every uri, streams come from the old resolvers first and from the new one only when all of them return null. |
| `FileSystems.SimpleFileSystem.RemovePathResolver` | src/main/java/com/flowpowered/filesystem/SimpleFileSystem.java:235-238 | The list becomes `RemoveFirst`. Removing an unregistered resolver changes nothing. |

Contract of `FileSystems.Load`:

- `LoaderNotFoundException` is raised exactly when no loader matches the
  scheme.
- `ResourceNotFoundException` is raised exactly when a loader matches but
  every resolver returns null.
- Otherwise the stream is the first resolver's stream (`FirstStream`) and
  the object is the matching loader's `load` of it. A null object gives
  IllegalStateException with the cache unchanged.
- A resolver's StringIndexOutOfBoundsException passes through with the
  cache unchanged.
- Success caches exactly the returned object under the uri.
- A failing close still caches the object.
- Every other failure leaves the cache unchanged.

Contract of `FileSystems.LoadFallback`:

- With no fallback it succeeds and the cache is unchanged.
- A fallback that does not parse gives IllegalArgumentException with the
  cache unchanged.
- A parsed fallback leaves the cache `loadResource` leaves. It succeeds
  exactly when `loadResource` does, and otherwise throws `FallbackError`
  of that exception.
- On success the fallback is cached.
- Existing keys stay. Every entry other than the fallback's keeps its
  value. `loadResource` always reloads, so the fallback's own entry is
  replaced by the fresh load, even when it was cached before.
- The only exceptions are IllegalArgumentException,
  IllegalStateException and StringIndexOutOfBoundsException.

## Left out

- `getLoaders` and `getPathResolvers` are not modelled as operations. They
  return unmodifiable views of the `loaders` and `resolvers` fields, which
  the model exposes directly.
- `requestedInstallations` is not modelled. The field is declared but no
  modelled code uses it.
- Logging is not modelled.
- `tryCast` is not modelled. The unchecked cast is erased and never throws,
  so results are untyped `Obj` values.
- Concurrency is not modelled. The source is not thread-safe and does not
  claim to be.
- HashSet iteration order is not modelled. The functions and lemmas hold
  for any order of `loaders`, but the class keeps insertion order, not
  Java's hash-bucket order. Which loader `getLoader` finds among case variants
  depends on that order.
- URI parsing is left out: identifiers come pre-parsed or marked as
  malformed. Equality of URIs as cache keys is structural, so the
  case-insensitive comparison of scheme and host that `java.net.URI.equals`
  makes is not modelled.
- `getResources` builds each child identifier as a string and parses it
  again. The model builds the child URI directly (`Child`) from the scheme,
  the host and the path followed by the name, and assumes the string
  parses into exactly those parts. A real re-parse can differ. With an
  empty path, `"text://lang" + "a.txt"` parses with host `langa.txt`. A
  name containing `#` or `?` cuts the path short, because the rest becomes
  a fragment or a query.
- A URI without a host (`getHost()` returning null) is not modelled.
- Case folding covers ASCII letters only. `String.equalsIgnoreCase` also
  folds other Unicode letters.
- `StringHash` takes each `char` as one 16-bit code unit. Characters
  outside the Basic Multilingual Plane, which Java hashes as two code
  units, are not modelled.
- `FilePathResolver` joins paths through `java.io.File`. The model reduces
  this to a map from (host, path) to what the path denotes, so path
  normalisation is left out.
- `ZipFile.getEntry` also finds a directory entry named with an extra
  trailing '/'. That quirk is left out; lookup is by exact name.
- `replaceFirst(path, "")` in both `list` loops treats `path` as a regular
  expression. The model removes it as a literal prefix. Paths with
  regular-expression metacharacters can therefore differ.
- `getInputStream` can throw IOException on a single entry. That is not
  modelled; an existing entry always yields its stream.
- Closing archives and file handles, and resource lifetimes, are left out.
  Only a failing close of the stream `loadResource` reads is modelled.
- `loader.load` is a total function of the stream. A `load` that throws is
  not modelled.

=== FILE: archives.dfy ===
/**
 * The archive model shared by the JAR and ZIP resolvers: a directory of
 * archive files, entry lookup, and the listing both `list` loops compute.
 */
module Archives {
  import opened Types

  /** A JarEntry / ZipEntry: its name, whether it is a directory entry, and the stream `getInputStream` opens. */
  datatype Entry = Entry(name: string, isDir: bool, data: Stream)

  /** A file in the resolver's directory: an archive that opens, or one whose opening throws IOException. */
  datatype ArchiveFile = Corrupt | Archive(entries: seq<Entry>)

  /** The resolver's configured directory: file name to file. */
  type ArchiveDir = map<string, ArchiveFile>

  /**
   * Opening `name` in `dir` (`new File(...).exists()`, then `new JarFile`/`new
   * ZipFile`): null when there is no such file, IOException when it does not
   * open, otherwise its entries in enumeration order.
   */
  function Open(dir: ArchiveDir, name: string): (r: Result<Option<seq<Entry>>>)
    ensures r == Ok(None) <==> name !in dir
    ensures r.Err? <==> name in dir && dir[name].Corrupt?
    ensures r.Err? ==> r.error == IOError
    ensures r.Ok? && r.value.Some? ==> name in dir && dir[name] == Archive(r.value.value)
  {
    if name !in dir then Ok(None)
    else match dir[name]
      case Corrupt => Err(IOError)
      case Archive(entries) => Ok(Some(entries))
  }

  /** `getEntry(name)`: the first entry with exactly that name, or null. */
  function Lookup(entries: seq<Entry>, name: string): (r: Option<Entry>)
    ensures r.None? <==> forall i :: 0 <= i < |entries| ==> entries[i].name != name
    ensures r.Some? ==> exists i :: 0 <= i < |entries| && entries[i] == r.value && r.value.name == name
  {
    if |entries| == 0 then None
    else if entries[0].name == name then Some(entries[0])
    else
      var r := Lookup(entries[1..], name);
      assert forall i :: 1 <= i < |entries| ==> entries[i] == entries[1..][i - 1];
      r
  }

  /** An entry `list` reports: not a directory, and its name starts with the prefix. */
  predicate Listed(e: Entry, prefix: string)
  {
    !e.isDir && prefix <= e.name
  }

  /**
   * The names `list` returns, in enumeration order: each listed entry's name
   * with the prefix removed (`replaceFirst` read as literal prefix removal).
   */
  function Listing(entries: seq<Entry>, prefix: string): (names: seq<string>)
    ensures |names| <= |entries|
    ensures |names| == |entries| ==> forall i :: 0 <= i < |entries| ==> Listed(entries[i], prefix)
  {
    if |entries| == 0 then []
    else
      var init := entries[..|entries| - 1];
      var last := entries[|entries| - 1];
      var names := Listing(init, prefix) + (if Listed(last, prefix) then [last.name[|prefix|..]] else []);
      assert forall i :: 0 <= i < |init| ==> init[i] == entries[i];
      names
  }

  /** Listing keeps enumeration order: the listing of a concatenation is the concatenation of listings. */
  lemma {:induction false} ListingAppend(a: seq<Entry>, b: seq<Entry>, prefix: string)
    ensures Listing(a + b, prefix) == Listing(a, prefix) + Listing(b, prefix)
    decreases |b|
  {
    if |b| == 0 {
      assert a + b == a;
    } else {
      var b' := b[..|b| - 1];
      assert (a + b)[..|a + b| - 1] == a + b';
      ListingAppend(a, b', prefix);
    }
  }

  /** `name` is what the listing reports for some listed entry. */
  ghost predicate ListedAs(entries: seq<Entry>, prefix: string, name: string)
  {
    exists i :: 0 <= i < |entries| && Listed(entries[i], prefix) && entries[i].name == prefix + name
  }

  /**
   * What a listing holds, exactly: every name is a listed entry's name
   * without the prefix, every listed entry contributes its name, and the
   * listing is never longer than the archive.
   */
  lemma {:induction false} ListingExactly(entries: seq<Entry>, prefix: string)
    ensures |Listing(entries, prefix)| <= |entries|
    ensures forall k :: 0 <= k < |Listing(entries, prefix)| ==> ListedAs(entries, prefix, Listing(entries, prefix)[k])
    ensures forall i :: 0 <= i < |entries| && Listed(entries[i], prefix) ==>
      entries[i].name[|prefix|..] in Listing(entries, prefix)
  {
    if |entries| > 0 {
      var init := entries[..|entries| - 1];
      var last := entries[|entries| - 1];
      ListingExactly(init, prefix);
      var l0 := Listing(init, prefix);
      var l := Listing(entries, prefix);
      assert l[..|l0|] == l0;
      forall k | 0 <= k < |l|
        ensures ListedAs(entries, prefix, l[k])
      {
        if k < |l0| {
          assert l[k] == l0[k];
          assert ListedAs(init, prefix, l0[k]);
          var i :| 0 <= i < |init| && Listed(init[i], prefix) && init[i].name == prefix + l0[k];
          assert entries[i] == init[i];
        } else {
          assert Listed(last, prefix) && l[k] == last.name[|prefix|..];
          assert last.name == prefix + l[k];
          assert entries[|entries| - 1] == last;
        }
      }
      forall i | 0 <= i < |entries| && Listed(entries[i], prefix)
        ensures entries[i].name[|prefix|..] in l
      {
        if i < |init| {
          assert entries[i] == init[i];
        } else {
          assert l[|l| - 1] == last.name[|prefix|..];
        }
      }
    }
  }

  /**
   * The outcome of either archive resolver's `list(host, path)` once the
   * archive has been opened: an IOException from opening is logged and null
   * returned; a missing archive throws IllegalArgumentException; an empty
   * path fails in `substring(1)`; otherwise the listing under `path[1..]`.
   */
  function ListResult(archive: Result<Option<seq<Entry>>>, path: string): (r: Result<Option<seq<string>>>)
    ensures r == Ok(None) <==> archive.Err?
    ensures r == Err(IllegalArgument) <==> archive == Ok(None)
    ensures archive.Ok? && archive.value.Some? ==>
      r == (if |path| == 0 then Err(IndexOutOfBounds) else Ok(Some(Listing(archive.value.value, path[1..]))))
  {
    match archive
    case Err(_) => Ok(None)
    case Ok(None) => Err(IllegalArgument)
    case Ok(Some(entries)) =>
      if |path| == 0 then Err(IndexOutOfBounds) else Ok(Some(Listing(entries, path[1..])))
  }

  /**
   * The list loop of both archive resolvers: walk the entries in order and
   * append the name, prefix removed, of each non-directory entry under the
   * prefix.
   */
  method ListEntries(entries: seq<Entry>, prefix: string) returns (list: seq<string>)
    ensures list == Listing(entries, prefix)
  {
    list := [];
    var i := 0;
    while i < |entries|
      invariant 0 <= i <= |entries|
      invariant list == Listing(entries[..i], prefix)
    {
      var entry := entries[i];
      var name := entry.name;
      if !entry.isDir && prefix <= name {
        list := list + [name[|prefix|..]];
      }
      assert entries[..i + 1][..i] == entries[..i];
      i := i + 1;
    }
    assert entries[..i] == entries;
  }
}

=== FILE: directory_resolver.dfy ===
/**
 * FilePathResolver: resources of host `h` are files under `<directory>/h`.
 * The file system is abstracted to what `new File(directory + '/' + host,
 * path)` denotes for each (host, path): a regular file with its content
 * stream, or a directory with its `listFiles()` in order.
 */
module DirectoryResolver {
  import opened Types

  /** One element of `listFiles()`: its name and whether `isFile()` holds. */
  datatype Child = Child(name: string, isFile: bool)

  /** What a (host, path) pair denotes when it exists. */
  datatype Node = RegularFile(data: Stream) | Dir(children: seq<Child>)

  /** The files below the resolver's directory, by (host, path). */
  type Tree = map<(string, string), Node>

  /**
   * `getStream(host, path)`: a FileInputStream on the file; opening a missing
   * file or a directory throws FileNotFoundException, which gives null.
   */
  function GetStream(tree: Tree, host: string, path: string): (r: Option<Stream>)
    ensures r.Some? ==> (host, path) in tree && tree[(host, path)] == RegularFile(r.value)
    ensures r.None? ==> (host, path) !in tree || tree[(host, path)].Dir?
  {
    if (host, path) in tree && tree[(host, path)].RegularFile? then Some(tree[(host, path)].data) else None
  }

  /** The names of the children that are regular files, in `listFiles()` order. */
  function FileNames(children: seq<Child>): (names: seq<string>)
    ensures |names| <= |children|
    ensures forall n :: n in names <==> exists i :: 0 <= i < |children| && children[i].isFile && children[i].name == n
  {
    if |children| == 0 then []
    else (if children[0].isFile then [children[0].name] else []) + FileNames(children[1..])
  }

  /**
   * `list(host, path)`: the regular files of the directory. For anything
   * else `listFiles()` returns null and the loop over it throws
   * NullPointerException.
   */
  function List(tree: Tree, host: string, path: string): (r: Result<seq<string>>)
    ensures r.Ok? <==> (host, path) in tree && tree[(host, path)].Dir?
    ensures r.Ok? ==> r.value == FileNames(tree[(host, path)].children)
    ensures r.Err? ==> r.error == NullPointer
  {
    if (host, path) in tree && tree[(host, path)].Dir? then Ok(FileNames(tree[(host, path)].children))
    else Err(NullPointer)
  }

  /**
   * `existsInPath(host, path)`: `getFile(host, path).exists()`. It holds
   * exactly for what can be read: a regular file, which `getStream` opens,
   * or a directory, which `list` lists.
   */
  predicate ExistsInPath(tree: Tree, host: string, path: string)
    ensures ExistsInPath(tree, host, path) <==> GetStream(tree, host, path).Some? || List(tree, host, path).Ok?
  {
    (host, path) in tree
  }
}

=== FILE: file_system.dfy ===
/**
 * SimpleFileSystem: the registry that owns the loaders, the ordered path
 * resolvers and the cache of loaded resources, and resolves, loads, caches
 * and substitutes fallbacks.
 *
 * The first half states each operation as a function of the registry's
 * fields (loaders, resolvers, cache); the class at the end runs the
 * operations on mutable fields and is proved to agree with those functions.
 */
module FileSystems {
  import opened Types
  import opened ResourceLoaders
  import opened PathResolvers

  /** The outcome of an operation and the resource cache it leaves behind. */
  datatype Step<T> = Step(result: Result<T>, cache: map<Uri, Obj>)

  // ---- loaders -------------------------------------------------------------

  /** `getLoader(scheme)`: the first loader, in iteration order, whose scheme equals `scheme` ignoring case. */
  function FindLoader(loaders: seq<ResourceLoader>, scheme: string): (r: Option<ResourceLoader>)
    ensures r.None? <==> forall i :: 0 <= i < |loaders| ==> !EqualsIgnoreCase(loaders[i].scheme, scheme)
    ensures r.Some? ==> exists i :: 0 <= i < |loaders| && loaders[i] == r.value && EqualsIgnoreCase(r.value.scheme, scheme)
  {
    if |loaders| == 0 then None
    else if EqualsIgnoreCase(loaders[0].scheme, scheme) then Some(loaders[0])
    else
      var r := FindLoader(loaders[1..], scheme);
      assert forall i :: 1 <= i < |loaders| ==> loaders[i] == loaders[1..][i - 1];
      r
  }

  /** No two loaders have schemes that are equal ignoring case. */
  ghost predicate DistinctSchemes(loaders: seq<ResourceLoader>)
  {
    forall i, j :: 0 <= i < j < |loaders| ==> !EqualsIgnoreCase(loaders[i].scheme, loaders[j].scheme)
  }

  /**
   * When schemes are distinct ignoring case, `getLoader` finds the one
   * matching loader whatever the iteration order.
   */
  lemma {:induction false} FindLoaderIsTheMatch(loaders: seq<ResourceLoader>, scheme: string, i: nat)
    requires DistinctSchemes(loaders)
    requires i < |loaders| && EqualsIgnoreCase(loaders[i].scheme, scheme)
    ensures FindLoader(loaders, scheme) == Some(loaders[i])
  {
    if i > 0 && EqualsIgnoreCase(loaders[0].scheme, scheme) {
      EqualsIgnoreCaseIffSameUpperCase(loaders[0].scheme, scheme);
      EqualsIgnoreCaseIffSameUpperCase(loaders[i].scheme, scheme);
      EqualsIgnoreCaseIffSameUpperCase(loaders[0].scheme, loaders[i].scheme);
      assert false;
    } else if i > 0 {
      assert loaders[1..][i - 1] == loaders[i];
      FindLoaderIsTheMatch(loaders[1..], scheme, i - 1);
    }
  }

  /** HashMap's test for a key already present: equal hash codes and `equals`. */
  predicate SameKey(present: ResourceLoader, added: ResourceLoader)
  {
    HashCode(present) == HashCode(added) && Equals(added, present)
  }

  /** `loaders.add(loader)` on the HashSet: nothing happens when an equal key is present; otherwise the loader joins. */
  function AddLoader(loaders: seq<ResourceLoader>, l: ResourceLoader): (r: seq<ResourceLoader>)
    ensures r == loaders || r == loaders + [l]
    ensures r == loaders <==> exists i | 0 <= i < |loaders| :: SameKey(loaders[i], l)
  {
    if exists i | 0 <= i < |loaders| :: SameKey(loaders[i], l) then loaders else loaders + [l]
  }

  /**
   * Adding never replaces or drops a loader, and afterwards some loader
   * serves the added loader's scheme.
   */
  lemma AddLoaderKeepsAndServes(loaders: seq<ResourceLoader>, l: ResourceLoader)
    ensures |loaders| <= |AddLoader(loaders, l)| <= |loaders| + 1
    ensures AddLoader(loaders, l)[..|loaders|] == loaders
    ensures FindLoader(AddLoader(loaders, l), l.scheme).Some?
  {
    var r := AddLoader(loaders, l);
    if exists i | 0 <= i < |loaders| :: SameKey(loaders[i], l) {
      var i :| 0 <= i < |loaders| && SameKey(loaders[i], l);
      assert EqualsIgnoreCase(r[i].scheme, l.scheme);
    } else {
      assert r[..|loaders|] == loaders;
      EqualsIgnoreCaseIffSameUpperCase(l.scheme, l.scheme);
      assert EqualsIgnoreCase(r[|loaders|].scheme, l.scheme);
    }
  }

  /**
   * A loader whose scheme string is already registered is not added again,
   * so registering the same loader twice adds it once.
   */
  lemma AddLoaderSameSchemeIsNoOp(loaders: seq<ResourceLoader>, l: ResourceLoader, i: nat)
    requires i < |loaders| && loaders[i].scheme == l.scheme
    ensures AddLoader(loaders, l) == loaders
    ensures AddLoader(AddLoader(loaders, l), l) == AddLoader(loaders, l)
  {
    EqualsIgnoreCaseIffSameUpperCase(l.scheme, l.scheme);
    assert SameKey(loaders[i], l);
  }

  /**
   * Schemes stay distinct ignoring case across an add whenever every
   * registered loader equal to the added one also hashes like it; only a
   * case variant with another hash code gets in beside its equal.
   */
  lemma AddLoaderKeepsSchemesDistinct(loaders: seq<ResourceLoader>, l: ResourceLoader)
    requires DistinctSchemes(loaders)
    requires forall i :: 0 <= i < |loaders| && Equals(l, loaders[i]) ==> HashCode(loaders[i]) == HashCode(l)
    ensures DistinctSchemes(AddLoader(loaders, l))
  {
    if !exists i | 0 <= i < |loaders| :: SameKey(loaders[i], l) {
      var r := AddLoader(loaders, l);
      forall i, j | 0 <= i < j < |r| ensures !EqualsIgnoreCase(r[i].scheme, r[j].scheme) {
        if j == |loaders| {
          assert !SameKey(loaders[i], l);
        }
      }
    }
  }

  /**
   * Two loaders whose schemes differ only in case are equal, yet both end up
   * in the set, because their hash codes differ.
   */
  lemma CaseVariantSchemesBothRegistered(load: Stream -> Option<Obj>)
    ensures var png := WithoutFallback("png", load);
      var upper := WithoutFallback("PNG", load);
      Equals(png, upper) && AddLoader([png], upper) == [png, upper]
  {
    CaseVariantsEqualButHashDiffer(load);
  }

  // ---- resolvers -----------------------------------------------------------

  /** `getResourceStream(uri)`: the stream of the first resolver, in list order, that gives one. */
  function FirstStream(resolvers: seq<PathResolver>, uri: Uri): (r: Result<Stream>)
    ensures r.Err? ==> r.error in {ResourceNotFound, IndexOutOfBounds}
  {
    if |resolvers| == 0 then Err(ResourceNotFound)
    else match GetStream(resolvers[0], uri)
      case Err(e) => Err(e)
      case Ok(Some(s)) => Ok(s)
      case Ok(None) => FirstStream(resolvers[1..], uri)
  }

  /** Every resolver before position `i` returns null for `uri`. */
  ghost predicate NoStreamBefore(resolvers: seq<PathResolver>, uri: Uri, i: nat)
    requires i <= |resolvers|
  {
    forall j :: 0 <= j < i ==> GetStream(resolvers[j], uri) == Ok(None)
  }

  /**
   * The stream comes from the first resolver that gives one, and
   * ResourceNotFound is raised exactly when every resolver returns null.
   */
  lemma {:induction false} FirstStreamIsFirstHit(resolvers: seq<PathResolver>, uri: Uri)
    ensures FirstStream(resolvers, uri) == Err(ResourceNotFound) <==> NoStreamBefore(resolvers, uri, |resolvers|)
    ensures forall i :: 0 <= i < |resolvers| && NoStreamBefore(resolvers, uri, i) && GetStream(resolvers[i], uri) != Ok(None) ==>
      FirstStream(resolvers, uri) == (match GetStream(resolvers[i], uri)
                                      case Ok(s) => Ok(s.value)
                                      case Err(e) => Err(e))
  {
    if |resolvers| > 0 {
      var rest := resolvers[1..];
      FirstStreamIsFirstHit(rest, uri);
      forall j | 1 <= j <= |resolvers| ensures NoStreamBefore(resolvers, uri, j) <==> GetStream(resolvers[0], uri) == Ok(None) && NoStreamBefore(rest, uri, j - 1) {
        assert forall k :: 1 <= k < j ==> resolvers[k] == rest[k - 1];
        if GetStream(resolvers[0], uri) == Ok(None) && NoStreamBefore(rest, uri, j - 1) {
          forall k | 0 <= k < j ensures GetStream(resolvers[k], uri) == Ok(None) {
            if k > 0 { assert resolvers[k] == rest[k - 1]; }
          }
        }
        if NoStreamBefore(resolvers, uri, j) {
          forall k | 0 <= k < j - 1 ensures GetStream(rest[k], uri) == Ok(None) {
            assert rest[k] == resolvers[k + 1];
          }
        }
      }
      forall i | 0 < i < |resolvers| && NoStreamBefore(resolvers, uri, i)
        ensures NoStreamBefore(rest, uri, i - 1)
      {
        forall k | 0 <= k < i - 1 ensures GetStream(rest[k], uri) == Ok(None) {
          assert rest[k] == resolvers[k + 1];
        }
      }
    }
  }

  /**
   * `addPathResolver` appends, so the new resolver is asked only when every
   * earlier one returned null.
   */
  lemma {:induction false} AppendedResolverComesLast(resolvers: seq<PathResolver>, p: PathResolver, uri: Uri)
    ensures FirstStream(resolvers + [p], uri) ==
      if FirstStream(resolvers, uri) == Err(ResourceNotFound) then FirstStream([p], uri) else FirstStream(resolvers, uri)
  {
    if |resolvers| > 0 {
      assert (resolvers + [p])[1..] == resolvers[1..] + [p];
      AppendedResolverComesLast(resolvers[1..], p, uri);
    } else {
      assert resolvers + [p] == [p];
    }
  }

  /** Every resolver before position `i` says `uri` does not exist. */
  ghost predicate NoneExistsBefore(resolvers: seq<PathResolver>, uri: Uri, i: nat)
    requires i <= |resolvers|
  {
    forall j :: 0 <= j < i ==> ExistsInPath(resolvers[j], uri) == Ok(false)
  }

  /**
   * `getPathResolver(uri)`: the first resolver, in list order, in which
   * `uri` exists; null when there is none; an exception a resolver throws on
   * the way propagates.
   */
  function FirstResolver(resolvers: seq<PathResolver>, uri: Uri): (r: Result<Option<PathResolver>>)
    ensures r.Ok? && r.value.Some? ==>
      exists i :: (0 <= i < |resolvers| && resolvers[i] == r.value.value &&
                   NoneExistsBefore(resolvers, uri, i) && ExistsInPath(resolvers[i], uri) == Ok(true))
    ensures r == Ok(None) <==> NoneExistsBefore(resolvers, uri, |resolvers|)
    ensures r.Err? ==> r.error in {NullPointer, IndexOutOfBounds}
  {
    if |resolvers| == 0 then Ok(None)
    else
      var r := match ExistsInPath(resolvers[0], uri)
        case Err(e) => Err(e)
        case Ok(true) => Ok(Some(resolvers[0]))
        case Ok(false) => FirstResolver(resolvers[1..], uri);
      assert forall i :: 1 <= i < |resolvers| ==> resolvers[i] == resolvers[1..][i - 1];
      assert ExistsInPath(resolvers[0], uri) == Ok(false) ==>
        forall i :: 1 <= i <= |resolvers| ==> (NoneExistsBefore(resolvers, uri, i) <==> NoneExistsBefore(resolvers[1..], uri, i - 1));
      r
  }

  /**
   * `getPathResolver` answers with the first resolver that does not say
   * "does not exist": that resolver when it says the uri exists, its
   * exception when it throws.
   */
  lemma {:induction false} FirstResolverIsFirstHit(resolvers: seq<PathResolver>, uri: Uri)
    ensures forall i :: 0 <= i < |resolvers| && NoneExistsBefore(resolvers, uri, i) && ExistsInPath(resolvers[i], uri) != Ok(false) ==>
      FirstResolver(resolvers, uri) == (match ExistsInPath(resolvers[i], uri)
                                        case Ok(_) => Ok(Some(resolvers[i]))
                                        case Err(e) => Err(e))
  {
    if |resolvers| > 0 {
      var rest := resolvers[1..];
      FirstResolverIsFirstHit(rest, uri);
      forall i | 0 < i < |resolvers| && NoneExistsBefore(resolvers, uri, i)
        ensures NoneExistsBefore(rest, uri, i - 1) && rest[i - 1] == resolvers[i]
      {
        forall k | 0 <= k < i - 1 ensures ExistsInPath(rest[k], uri) == Ok(false) {
          assert rest[k] == resolvers[k + 1];
        }
      }
    }
  }

  /** `pathResolvers.remove(resolver)`: drop the first occurrence, by identity. */
  function RemoveFirst(resolvers: seq<PathResolver>, p: PathResolver): (r: seq<PathResolver>)
    ensures multiset(r) == multiset(resolvers) - multiset{p}
  {
    if |resolvers| == 0 then []
    else
      assert resolvers == [resolvers[0]] + resolvers[1..];
      if resolvers[0] == p then resolvers[1..]
      else [resolvers[0]] + RemoveFirst(resolvers[1..], p)
  }

  /** Removal deletes exactly the first occurrence and keeps the order of the rest. */
  lemma {:induction false} RemoveFirstDeletesFirstOccurrence(resolvers: seq<PathResolver>, p: PathResolver, i: nat)
    requires i < |resolvers| && resolvers[i] == p && p !in resolvers[..i]
    ensures RemoveFirst(resolvers, p) == resolvers[..i] + resolvers[i + 1..]
  {
    if i > 0 {
      assert resolvers[0] in resolvers[..i];
      assert resolvers[1..][..i - 1] == resolvers[1..i];
      RemoveFirstDeletesFirstOccurrence(resolvers[1..], p, i - 1);
      assert resolvers[..i] == [resolvers[0]] + resolvers[1..i];
    }
  }

  /** Removing a resolver that is not registered changes nothing. */
  lemma {:induction false} RemoveFirstAbsent(resolvers: seq<PathResolver>, p: PathResolver)
    requires p !in resolvers
    ensures RemoveFirst(resolvers, p) == resolvers
  {
    if |resolvers| > 0 {
      assert resolvers[1..] + [] == resolvers[1..];
      RemoveFirstAbsent(resolvers[1..], p);
    }
  }

  // ---- loading -------------------------------------------------------------

  /**
   * `loadResource(uri)`: find the loader first; then the stream; then load.
   * A successful load overwrites the cache entry for `uri` before the
   * stream is closed, so a failing close (IOException) still leaves the
   * object cached. A null object raises IllegalStateException.
   */
  function Load(loaders: seq<ResourceLoader>, resolvers: seq<PathResolver>, cache: map<Uri, Obj>, uri: Uri): (r: Step<Obj>)
    ensures r.result == Err(LoaderNotFound) <==> FindLoader(loaders, uri.scheme).None?
    ensures r.result == Err(ResourceNotFound) <==>
      FindLoader(loaders, uri.scheme).Some? && FirstStream(resolvers, uri) == Err(ResourceNotFound)
    ensures r.result.Ok? ==> r.cache == cache[uri := r.result.value]
    ensures r.result == Err(IOError) ==> uri in r.cache && r.cache == cache[uri := r.cache[uri]]
    ensures r.result.Err? && r.result.error != IOError ==> r.cache == cache
    ensures r.result.Err? ==> r.result.error in {LoaderNotFound, ResourceNotFound, IOError, IllegalState, IndexOutOfBounds}
    ensures FindLoader(loaders, uri.scheme).Some? && FirstStream(resolvers, uri) == Err(IndexOutOfBounds) ==>
      r == Step(Err(IndexOutOfBounds), cache)
    ensures FindLoader(loaders, uri.scheme).Some? && FirstStream(resolvers, uri).Ok? ==>
      var stream := FirstStream(resolvers, uri).value;
      match FindLoader(loaders, uri.scheme).value.load(stream)
      case None => r == Step(Err(IllegalState), cache)
      case Some(obj) => r.cache == cache[uri := obj] && r.result == (if stream.closeFails then Err(IOError) else Ok(obj))
  {
    match FindLoader(loaders, uri.scheme)
    case None => Step(Err(LoaderNotFound), cache)
    case Some(loader) =>
      match FirstStream(resolvers, uri)
      case Err(e) => Step(Err(e), cache)
      case Ok(stream) =>
        match loader.load(stream)
        case None => Step(Err(IllegalState), cache)
        case Some(obj) => Step(if stream.closeFails then Err(IOError) else Ok(obj), cache[uri := obj])
  }

  /**
   * `getResource(uri)`: a cached uri is answered from the cache. Otherwise
   * load it: a missing loader and an IOException become
   * IllegalArgumentException; a missing resource is answered by the cache
   * entry of the scheme's fallback (null when that is not cached), or
   * IllegalStateException when there is no usable fallback.
   */
  function Fetch(loaders: seq<ResourceLoader>, resolvers: seq<PathResolver>, cache: map<Uri, Obj>, uri: Uri): (r: Step<Option<Obj>>)
    ensures uri in cache ==> r == Step(Ok(Some(cache[uri])), cache)
    ensures forall k :: k in cache ==> k in r.cache && r.cache[k] == cache[k]
    ensures r.cache.Keys <= cache.Keys + {uri}
    ensures r.result.Err? ==> r.result.error in {IllegalArgument, IllegalState, IndexOutOfBounds}
    ensures uri !in cache && FindLoader(loaders, uri.scheme).None? ==> r == Step(Err(IllegalArgument), cache)
    ensures uri !in cache && Load(loaders, resolvers, cache, uri).result.Ok? ==>
      r == Step(Ok(Some(Load(loaders, resolvers, cache, uri).result.value)), Load(loaders, resolvers, cache, uri).cache)
    ensures (uri !in cache && Load(loaders, resolvers, cache, uri).result.Err? &&
             Load(loaders, resolvers, cache, uri).result.error in {LoaderNotFound, IOError}) ==>
      r == Step(Err(IllegalArgument), Load(loaders, resolvers, cache, uri).cache)
    ensures (uri !in cache && Load(loaders, resolvers, cache, uri).result.Err? &&
             Load(loaders, resolvers, cache, uri).result.error !in {LoaderNotFound, IOError, ResourceNotFound}) ==>
      r == Step(Err(Load(loaders, resolvers, cache, uri).result.error), Load(loaders, resolvers, cache, uri).cache)
  {
    if uri in cache then Step(Ok(Some(cache[uri])), cache)
    else
      var loaded := Load(loaders, resolvers, cache, uri);
      match loaded.result
      case Ok(obj) => Step(Ok(Some(obj)), loaded.cache)
      case Err(LoaderNotFound) => Step(Err(IllegalArgument), loaded.cache)
      case Err(IOError) => Step(Err(IllegalArgument), loaded.cache)
      case Err(ResourceNotFound) =>
        (match FindLoader(loaders, uri.scheme)
         case None => Step(Err(NullPointer), loaded.cache)  // cannot happen: Load found a loader
         case Some(loader) =>
           match loader.fallback
           case None => Step(Err(IllegalState), loaded.cache)
           case Some(Malformed(_)) => Step(Err(IllegalState), loaded.cache)
           case Some(Parsed(fallback)) => Step(Ok(Get(loaded.cache, fallback)), loaded.cache))
      case Err(e) => Step(Err(e), loaded.cache)
  }

  /**
   * Once `getResource` has loaded a uri, asking again returns the identical
   * object from the cache, without loading and without changing the cache.
   */
  lemma SecondFetchIsCacheHit(loaders: seq<ResourceLoader>, resolvers: seq<PathResolver>, cache: map<Uri, Obj>, uri: Uri)
    requires uri !in cache && Load(loaders, resolvers, cache, uri).result.Ok?
    ensures var first := Fetch(loaders, resolvers, cache, uri);
      var obj := Load(loaders, resolvers, cache, uri).result.value;
      first.result == Ok(Some(obj)) && uri in first.cache &&
      Fetch(loaders, resolvers, first.cache, uri) == Step(Ok(Some(obj)), first.cache)
  {
  }

  /**
   * When closing the stream fails, `getResource` throws
   * IllegalArgumentException, yet the object is cached and the next call
   * returns it.
   */
  lemma CloseFailureStillCaches(loaders: seq<ResourceLoader>, resolvers: seq<PathResolver>, cache: map<Uri, Obj>, uri: Uri)
    requires uri !in cache && Load(loaders, resolvers, cache, uri).result == Err(IOError)
    ensures var first := Fetch(loaders, resolvers, cache, uri);
      first.result == Err(IllegalArgument) && uri in first.cache &&
      Fetch(loaders, resolvers, first.cache, uri).result == Ok(Some(first.cache[uri]))
  {
  }

  /**
   * A resource that no resolver finds is answered by the cached object of
   * the scheme's fallback, the same object `getResource` returns for the
   * fallback itself; nothing is loaded and the cache is unchanged.
   */
  lemma MissingResourceUsesCachedFallback(loaders: seq<ResourceLoader>, resolvers: seq<PathResolver>, cache: map<Uri, Obj>, uri: Uri, fallback: Uri)
    requires uri !in cache && FindLoader(loaders, uri.scheme).Some?
    requires FindLoader(loaders, uri.scheme).value.fallback == Some(Parsed(fallback))
    requires NoStreamBefore(resolvers, uri, |resolvers|)
    ensures Fetch(loaders, resolvers, cache, uri) == Step(Ok(Get(cache, fallback)), cache)
    ensures fallback in cache ==> Fetch(loaders, resolvers, cache, uri) == Fetch(loaders, resolvers, cache, fallback)
  {
    FirstStreamIsFirstHit(resolvers, uri);
  }

  /** Without a fallback, a resource that no resolver finds raises IllegalStateException. */
  lemma MissingResourceWithoutFallbackFails(loaders: seq<ResourceLoader>, resolvers: seq<PathResolver>, cache: map<Uri, Obj>, uri: Uri)
    requires uri !in cache && FindLoader(loaders, uri.scheme).Some?
    requires FindLoader(loaders, uri.scheme).value.fallback.None?
    requires NoStreamBefore(resolvers, uri, |resolvers|)
    ensures Fetch(loaders, resolvers, cache, uri) == Step(Err(IllegalState), cache)
  {
    FirstStreamIsFirstHit(resolvers, uri);
  }

  /** A fallback that does not parse as a URI makes a missing resource raise IllegalStateException. */
  lemma MissingResourceWithMalformedFallbackFails(loaders: seq<ResourceLoader>, resolvers: seq<PathResolver>, cache: map<Uri, Obj>, uri: Uri)
    requires uri !in cache && FindLoader(loaders, uri.scheme).Some?
    requires FindLoader(loaders, uri.scheme).value.fallback.Some? && FindLoader(loaders, uri.scheme).value.fallback.value.Malformed?
    requires NoStreamBefore(resolvers, uri, |resolvers|)
    ensures Fetch(loaders, resolvers, cache, uri) == Step(Err(IllegalState), cache)
  {
    FirstStreamIsFirstHit(resolvers, uri);
  }

  // ---- registering loaders -------------------------------------------------

  /** The exception `loadFallback` turns each checked exception of `loadResource` into. */
  function FallbackError(e: Exception): (r: Exception)
    ensures e in {LoaderNotFound, ResourceNotFound} ==> r == IllegalArgument
    ensures e == IOError ==> r == IllegalState
    ensures e !in {LoaderNotFound, ResourceNotFound, IOError} ==> r == e
    ensures r !in {LoaderNotFound, ResourceNotFound, IOError}
  {
    match e
    case LoaderNotFound => IllegalArgument
    case ResourceNotFound => IllegalArgument
    case IOError => IllegalState
    case _ => e
  }

  /**
   * `loadFallback(loader)`: load the fallback, if any, into the cache. A
   * fallback without loader or without resource becomes
   * IllegalArgumentException, an IOException becomes IllegalStateException;
   * an unparsable fallback is IllegalArgumentException from
   * `loadResource(String)`.
   */
  function LoadFallback(loaders: seq<ResourceLoader>, resolvers: seq<PathResolver>, cache: map<Uri, Obj>, l: ResourceLoader): (r: Step<()>)
    ensures cache.Keys <= r.cache.Keys
    ensures forall k :: k in cache && !(l.fallback.Some? && l.fallback.value.Parsed? && k == l.fallback.value.uri) ==>
      r.cache[k] == cache[k]
    ensures r.result.Ok? && l.fallback.Some? ==> l.fallback.value.Parsed? && l.fallback.value.uri in r.cache
    ensures r.result.Err? ==> r.result.error in {IllegalArgument, IllegalState, IndexOutOfBounds}
    ensures l.fallback.None? ==> r == Step(Ok(()), cache)
    ensures l.fallback.Some? && l.fallback.value.Malformed? ==> r == Step(Err(IllegalArgument), cache)
    ensures l.fallback.Some? && l.fallback.value.Parsed? ==>
      var loaded := Load(loaders, resolvers, cache, l.fallback.value.uri);
      r.cache == loaded.cache && (r.result.Ok? <==> loaded.result.Ok?) &&
      (loaded.result.Err? ==> r.result == Err(FallbackError(loaded.result.error)))
  {
    match l.fallback
    case None => Step(Ok(()), cache)
    case Some(Malformed(_)) => Step(Err(IllegalArgument), cache)
    case Some(Parsed(fallback)) =>
      var loaded := Load(loaders, resolvers, cache, fallback);
      Step(if loaded.result.Ok? then Ok(()) else Err(FallbackError(loaded.result.error)), loaded.cache)
  }

  /**
   * A fallback whose scheme has no loader, or that no resolver finds, makes
   * registration fail with IllegalArgumentException and leaves the cache as
   * it was; a fallback that loads is cached and registration succeeds.
   */
  lemma FallbackFailuresBecomeUnchecked(loaders: seq<ResourceLoader>, resolvers: seq<PathResolver>, cache: map<Uri, Obj>,
                                        l: ResourceLoader, fallback: Uri)
    requires l.fallback == Some(Parsed(fallback))
    ensures FindLoader(loaders, fallback.scheme).None? ==> LoadFallback(loaders, resolvers, cache, l) == Step(Err(IllegalArgument), cache)
    ensures FindLoader(loaders, fallback.scheme).Some? && NoStreamBefore(resolvers, fallback, |resolvers|) ==>
      LoadFallback(loaders, resolvers, cache, l) == Step(Err(IllegalArgument), cache)
    ensures LoadFallback(loaders, resolvers, cache, l).result.Ok? ==>
      LoadFallback(loaders, resolvers, cache, l).cache == cache[fallback := LoadFallback(loaders, resolvers, cache, l).cache[fallback]]
  {
    FirstStreamIsFirstHit(resolvers, fallback);
  }

  /**
   * `loadResource` does not consult the cache, so loading a fallback that is
   * already cached replaces its object by the freshly loaded one.
   */
  lemma FallbackReloadReplacesCachedObject(loaders: seq<ResourceLoader>, resolvers: seq<PathResolver>, cache: map<Uri, Obj>,
                                           l: ResourceLoader, fallback: Uri, stream: Stream, obj: Obj)
    requires l.fallback == Some(Parsed(fallback))
    requires FindLoader(loaders, fallback.scheme).Some? && FirstStream(resolvers, fallback) == Ok(stream)
    requires FindLoader(loaders, fallback.scheme).value.load(stream) == Some(obj)
    ensures var after := LoadFallback(loaders, resolvers, cache, l).cache;
      fallback in after && after[fallback] == obj
    ensures LoadFallback(loaders, resolvers, cache, l).result == (if stream.closeFails then Err(IllegalState) else Ok(()))
  {
  }

  /**
   * After `registerLoader(l)` succeeds, a resource of a scheme served by `l`
   * that no resolver finds is answered by the fallback object `l` loaded.
   */
  lemma RegisteredFallbackAnswersMisses(loaders: seq<ResourceLoader>, resolvers: seq<PathResolver>, cache: map<Uri, Obj>,
                                        l: ResourceLoader, uri: Uri)
    requires l.fallback.Some? && l.fallback.value.Parsed?
    requires LoadFallback(AddLoader(loaders, l), resolvers, cache, l).result.Ok?
    requires FindLoader(AddLoader(loaders, l), uri.scheme) == Some(l)
    requires uri !in LoadFallback(AddLoader(loaders, l), resolvers, cache, l).cache
    requires NoStreamBefore(resolvers, uri, |resolvers|)
    ensures var after := LoadFallback(AddLoader(loaders, l), resolvers, cache, l).cache;
      var fallback := l.fallback.value.uri;
      fallback in after && Fetch(AddLoader(loaders, l), resolvers, after, uri) == Step(Ok(Some(after[fallback])), after)
  {
    var after := LoadFallback(AddLoader(loaders, l), resolvers, cache, l).cache;
    MissingResourceUsesCachedFallback(AddLoader(loaders, l), resolvers, after, uri, l.fallback.value.uri);
  }

  // ---- listing -------------------------------------------------------------

  /** The identifier `scheme + "://" + host + path + name` of a listed name. */
  function Child(base: Uri, name: string): (u: Uri)
    ensures u.scheme == base.scheme && u.host == base.host && base.path <= u.path && u.path[|base.path|..] == name
  {
    Uri(base.scheme, base.host, base.path + name)
  }

  /**
   * The loop of `getResources`: `getResource` on each name in turn, results
   * appended to `acc`; the first exception ends it.
   */
  function FetchAll(loaders: seq<ResourceLoader>, resolvers: seq<PathResolver>, cache: map<Uri, Obj>,
                    base: Uri, names: seq<string>, acc: seq<Option<Obj>>): (r: Step<seq<Option<Obj>>>)
    ensures r.result.Ok? ==> |r.result.value| == |acc| + |names|
    ensures r.result.Err? ==> r.result.error in {IllegalArgument, IllegalState, IndexOutOfBounds}
    decreases |names|
  {
    if |names| == 0 then Step(Ok(acc), cache)
    else
      var fetched := Fetch(loaders, resolvers, cache, Child(base, names[0]));
      if fetched.result.Err? then Step(Err(fetched.result.error), fetched.cache)
      else FetchAll(loaders, resolvers, fetched.cache, base, names[1..], acc + [fetched.result.value])
  }

  /**
   * One result per name, in order, after what was accumulated; no cache
   * entry changes, and the only new entries are the listed identifiers.
   */
  lemma {:induction false} FetchAllShape(loaders: seq<ResourceLoader>, resolvers: seq<PathResolver>, cache: map<Uri, Obj>,
                                         base: Uri, names: seq<string>, acc: seq<Option<Obj>>)
    ensures var r := FetchAll(loaders, resolvers, cache, base, names, acc);
      (r.result.Ok? ==> |r.result.value| == |acc| + |names| && r.result.value[..|acc|] == acc) &&
      (forall k :: k in cache ==> k in r.cache && r.cache[k] == cache[k]) &&
      r.cache.Keys <= cache.Keys + (set n | n in names :: Child(base, n))
    decreases |names|
  {
    if |names| > 0 {
      var child := Child(base, names[0]);
      var fetched := Fetch(loaders, resolvers, cache, child);
      var r := FetchAll(loaders, resolvers, cache, base, names, acc);
      var children := set n | n in names :: Child(base, n);
      assert child in children;
      if fetched.result.Ok? {
        var acc' := acc + [fetched.result.value];
        assert r == FetchAll(loaders, resolvers, fetched.cache, base, names[1..], acc');
        FetchAllShape(loaders, resolvers, fetched.cache, base, names[1..], acc');
        if r.result.Ok? {
          assert r.result.value[..|acc'|][..|acc|] == r.result.value[..|acc|];
        }
        assert (set n | n in names[1..] :: Child(base, n)) <= children;
      } else {
        assert r == Step(Err(fetched.result.error), fetched.cache);
      }
    }
  }

  /** Running the loop over `a + b` is running it over `a`, then over `b` from where `a` left off. */
  lemma {:induction false} FetchAllSplit(loaders: seq<ResourceLoader>, resolvers: seq<PathResolver>, cache: map<Uri, Obj>,
                                         base: Uri, a: seq<string>, b: seq<string>, acc: seq<Option<Obj>>)
    ensures var first := FetchAll(loaders, resolvers, cache, base, a, acc);
      FetchAll(loaders, resolvers, cache, base, a + b, acc) ==
        if first.result.Err? then first else FetchAll(loaders, resolvers, first.cache, base, b, first.result.value)
    decreases |a|
  {
    if |a| == 0 {
      assert a + b == b;
    } else {
      assert (a + b)[0] == a[0] && (a + b)[1..] == a[1..] + b;
      var fetched := Fetch(loaders, resolvers, cache, Child(base, a[0]));
      if fetched.result.Ok? {
        FetchAllSplit(loaders, resolvers, fetched.cache, base, a[1..], b, acc + [fetched.result.value]);
      }
    }
  }

  /** Result `k` of the loop is `getResource` of the `k`-th name in the cache the first `k` names left behind. */
  lemma FetchAllElement(loaders: seq<ResourceLoader>, resolvers: seq<PathResolver>, cache: map<Uri, Obj>,
                        base: Uri, names: seq<string>, acc: seq<Option<Obj>>, k: nat)
    requires FetchAll(loaders, resolvers, cache, base, names, acc).result.Ok? && k < |names|
    ensures var before := FetchAll(loaders, resolvers, cache, base, names[..k], acc);
      var r := FetchAll(loaders, resolvers, cache, base, names, acc).result.value;
      before.result.Ok? && |acc| + k < |r| &&
      Fetch(loaders, resolvers, before.cache, Child(base, names[k])).result == Ok(r[|acc| + k]) &&
      (forall u :: u in cache ==> u in before.cache && before.cache[u] == cache[u])
  {
    var r := FetchAll(loaders, resolvers, cache, base, names, acc);
    var before := FetchAll(loaders, resolvers, cache, base, names[..k], acc);
    var rest := names[k..];
    FetchAllSplit(loaders, resolvers, cache, base, names[..k], rest, acc);
    assert names[..k] + rest == names;
    assert before.result.Ok?;
    FetchAllShape(loaders, resolvers, cache, base, names[..k], acc);
    assert r == FetchAll(loaders, resolvers, before.cache, base, rest, before.result.value);
    assert rest[0] == names[k] && rest[1..] == names[k + 1..];
    var fetched := Fetch(loaders, resolvers, before.cache, Child(base, names[k]));
    assert fetched.result.Ok?;
    var acc' := before.result.value + [fetched.result.value];
    assert r == FetchAll(loaders, resolvers, fetched.cache, base, names[k + 1..], acc');
    FetchAllShape(loaders, resolvers, fetched.cache, base, names[k + 1..], acc');
    assert r.result.value[..|acc'|] == acc';
    assert acc'[|acc| + k] == fetched.result.value;
  }

  /**
   * The loop's results are in listing order: result `k` is what
   * `getResource` gives for the `k`-th name in the cache the earlier names
   * left behind; a name whose identifier was cached before the loop gets
   * the cached object.
   */
  lemma FetchAllInOrder(loaders: seq<ResourceLoader>, resolvers: seq<PathResolver>, cache: map<Uri, Obj>,
                        base: Uri, names: seq<string>, acc: seq<Option<Obj>>)
    requires FetchAll(loaders, resolvers, cache, base, names, acc).result.Ok?
    ensures |FetchAll(loaders, resolvers, cache, base, names, acc).result.value| == |acc| + |names|
    ensures forall k :: 0 <= k < |names| ==>
      FetchAll(loaders, resolvers, cache, base, names[..k], acc).result.Ok? &&
      Fetch(loaders, resolvers, FetchAll(loaders, resolvers, cache, base, names[..k], acc).cache, Child(base, names[k])).result ==
        Ok(FetchAll(loaders, resolvers, cache, base, names, acc).result.value[|acc| + k])
    ensures forall k :: 0 <= k < |names| && Child(base, names[k]) in cache ==>
      FetchAll(loaders, resolvers, cache, base, names, acc).result.value[|acc| + k] == Some(cache[Child(base, names[k])])
  {
    FetchAllShape(loaders, resolvers, cache, base, names, acc);
    forall k | 0 <= k < |names|
      ensures FetchAll(loaders, resolvers, cache, base, names[..k], acc).result.Ok?
      ensures Fetch(loaders, resolvers, FetchAll(loaders, resolvers, cache, base, names[..k], acc).cache, Child(base, names[k])).result ==
        Ok(FetchAll(loaders, resolvers, cache, base, names, acc).result.value[|acc| + k])
    {
      FetchAllElement(loaders, resolvers, cache, base, names, acc, k);
    }
    forall k | 0 <= k < |names| && Child(base, names[k]) in cache
      ensures FetchAll(loaders, resolvers, cache, base, names, acc).result.value[|acc| + k] == Some(cache[Child(base, names[k])])
    {
      FetchAllElement(loaders, resolvers, cache, base, names, acc, k);
    }
  }

  /**
   * The loop stops at the first name whose `getResource` throws: the loop
   * throws that exception and leaves that call's cache behind.
   */
  lemma FetchAllStopsAtFirstFailure(loaders: seq<ResourceLoader>, resolvers: seq<PathResolver>, cache: map<Uri, Obj>,
                                    base: Uri, names: seq<string>, acc: seq<Option<Obj>>, k: nat)
    requires k < |names| && FetchAll(loaders, resolvers, cache, base, names[..k], acc).result.Ok?
    requires Fetch(loaders, resolvers, FetchAll(loaders, resolvers, cache, base, names[..k], acc).cache, Child(base, names[k])).result.Err?
    ensures var failed := Fetch(loaders, resolvers, FetchAll(loaders, resolvers, cache, base, names[..k], acc).cache, Child(base, names[k]));
      FetchAll(loaders, resolvers, cache, base, names, acc) == Step(Err(failed.result.error), failed.cache)
  {
    var before := FetchAll(loaders, resolvers, cache, base, names[..k], acc);
    var rest := names[k..];
    FetchAllSplit(loaders, resolvers, cache, base, names[..k], rest, acc);
    assert names[..k] + rest == names;
    assert rest[0] == names[k];
    var failed := Fetch(loaders, resolvers, before.cache, Child(base, names[k]));
    assert FetchAll(loaders, resolvers, before.cache, base, rest, before.result.value) == Step(Err(failed.result.error), failed.cache);
  }

  /** The loop over the first `k` names succeeds when `getResource` succeeds on each of them in turn. */
  lemma {:induction false} FetchAllPrefixSucceeds(loaders: seq<ResourceLoader>, resolvers: seq<PathResolver>, cache: map<Uri, Obj>,
                                                  base: Uri, names: seq<string>, acc: seq<Option<Obj>>, k: nat)
    requires k <= |names|
    requires forall j :: 0 <= j < |names| && FetchAll(loaders, resolvers, cache, base, names[..j], acc).result.Ok? ==>
      Fetch(loaders, resolvers, FetchAll(loaders, resolvers, cache, base, names[..j], acc).cache, Child(base, names[j])).result.Ok?
    ensures FetchAll(loaders, resolvers, cache, base, names[..k], acc).result.Ok?
  {
    if k == 0 {
      assert names[..0] == [];
    } else {
      var j := k - 1;
      FetchAllPrefixSucceeds(loaders, resolvers, cache, base, names, acc, j);
      var before := FetchAll(loaders, resolvers, cache, base, names[..j], acc);
      FetchAllSplit(loaders, resolvers, cache, base, names[..j], [names[j]], acc);
      assert names[..j] + [names[j]] == names[..k];
      var fetched := Fetch(loaders, resolvers, before.cache, Child(base, names[j]));
      assert fetched.result.Ok?;
      assert [names[j]][1..] == [];
      assert FetchAll(loaders, resolvers, before.cache, base, [names[j]], before.result.value) ==
        FetchAll(loaders, resolvers, fetched.cache, base, [], before.result.value + [fetched.result.value]);
    }
  }

  /**
   * The loop succeeds exactly when `getResource` succeeds on every name, each
   * in the cache the earlier names left behind.
   */
  lemma FetchAllSucceedsWhenEveryFetchDoes(loaders: seq<ResourceLoader>, resolvers: seq<PathResolver>, cache: map<Uri, Obj>,
                                           base: Uri, names: seq<string>, acc: seq<Option<Obj>>)
    ensures FetchAll(loaders, resolvers, cache, base, names, acc).result.Ok? <==>
      forall j :: 0 <= j < |names| ==>
        FetchAll(loaders, resolvers, cache, base, names[..j], acc).result.Ok? &&
        Fetch(loaders, resolvers, FetchAll(loaders, resolvers, cache, base, names[..j], acc).cache, Child(base, names[j])).result.Ok?
  {
    if FetchAll(loaders, resolvers, cache, base, names, acc).result.Ok? {
      forall j | 0 <= j < |names|
        ensures FetchAll(loaders, resolvers, cache, base, names[..j], acc).result.Ok?
        ensures Fetch(loaders, resolvers, FetchAll(loaders, resolvers, cache, base, names[..j], acc).cache, Child(base, names[j])).result.Ok?
      {
        FetchAllElement(loaders, resolvers, cache, base, names, acc, j);
      }
    }
    if forall j :: 0 <= j < |names| ==>
        FetchAll(loaders, resolvers, cache, base, names[..j], acc).result.Ok? &&
        Fetch(loaders, resolvers, FetchAll(loaders, resolvers, cache, base, names[..j], acc).cache, Child(base, names[j])).result.Ok? {
      FetchAllPrefixSucceeds(loaders, resolvers, cache, base, names, acc, |names|);
      assert names[..|names|] == names;
    }
  }

  /**
   * `getResources(uri)`: the first resolver in which `uri` exists lists its
   * names, and each `scheme://host + path + name` is fetched with
   * `getResource`. No such resolver: IllegalArgumentException; a null
   * listing: NullPointerException.
   */
  function Resources(loaders: seq<ResourceLoader>, resolvers: seq<PathResolver>, cache: map<Uri, Obj>, uri: Uri): (r: Step<seq<Option<Obj>>>)
    ensures FirstResolver(resolvers, uri) == Ok(None) ==> r == Step(Err(IllegalArgument), cache)
    ensures FirstResolver(resolvers, uri).Err? ==> r == Step(Err(FirstResolver(resolvers, uri).error), cache)
    ensures FirstResolver(resolvers, uri).Ok? && FirstResolver(resolvers, uri).value.Some? ==>
      var listed := ListResult(FirstResolver(resolvers, uri).value.value, uri);
      (listed.Err? ==> r == Step(Err(listed.error), cache)) &&
      (listed == Ok(None) ==> r == Step(Err(NullPointer), cache)) &&
      (listed.Ok? && listed.value.Some? ==> r == FetchAll(loaders, resolvers, cache, uri, listed.value.value, []))
  {
    match FirstResolver(resolvers, uri)
    case Err(e) => Step(Err(e), cache)
    case Ok(None) => Step(Err(IllegalArgument), cache)
    case Ok(Some(resolver)) =>
      match ListResult(resolver, uri)
      case Err(e) => Step(Err(e), cache)
      case Ok(None) => Step(Err(NullPointer), cache)
      case Ok(Some(names)) => FetchAll(loaders, resolvers, cache, uri, names, [])
  }

  /**
   * The loop over a listing from an empty result list: one object per name,
   * object `k` being `getResource` of the `k`-th name in the cache the
   * earlier names left behind, and a cached name's object.
   */
  lemma FetchAllOnePerName(loaders: seq<ResourceLoader>, resolvers: seq<PathResolver>, cache: map<Uri, Obj>,
                           base: Uri, names: seq<string>)
    requires FetchAll(loaders, resolvers, cache, base, names, []).result.Ok?
    ensures var r := FetchAll(loaders, resolvers, cache, base, names, []).result.value;
      |r| == |names| &&
      (forall k :: 0 <= k < |names| ==>
        Fetch(loaders, resolvers, FetchAll(loaders, resolvers, cache, base, names[..k], []).cache, Child(base, names[k])).result == Ok(r[k])) &&
      (forall k :: 0 <= k < |names| && Child(base, names[k]) in cache ==> r[k] == Some(cache[Child(base, names[k])]))
  {
    var r := FetchAll(loaders, resolvers, cache, base, names, []).result.value;
    forall k | 0 <= k < |names|
      ensures Fetch(loaders, resolvers, FetchAll(loaders, resolvers, cache, base, names[..k], []).cache, Child(base, names[k])).result == Ok(r[k])
      ensures Child(base, names[k]) in cache ==> r[k] == Some(cache[Child(base, names[k])])
    {
      FetchAllElement(loaders, resolvers, cache, base, names, [], k);
    }
  }

  /**
   * A successful `getResources` returns exactly one object per name the
   * first existing resolver lists, and never alters a cached entry.
   */
  lemma ResourcesOnePerListedName(loaders: seq<ResourceLoader>, resolvers: seq<PathResolver>, cache: map<Uri, Obj>, uri: Uri)
    ensures var r := Resources(loaders, resolvers, cache, uri);
      (forall k :: k in cache ==> k in r.cache && r.cache[k] == cache[k]) &&
      (r.result.Ok? ==>
        FirstResolver(resolvers, uri).Ok? && FirstResolver(resolvers, uri).value.Some? &&
        var names := ListResult(FirstResolver(resolvers, uri).value.value, uri);
        names.Ok? && names.value.Some? && |r.result.value| == |names.value.value| &&
        (forall k :: 0 <= k < |names.value.value| ==>
          Fetch(loaders, resolvers, FetchAll(loaders, resolvers, cache, uri, names.value.value[..k], []).cache,
                Child(uri, names.value.value[k])).result == Ok(r.result.value[k])) &&
        (forall k :: 0 <= k < |names.value.value| && Child(uri, names.value.value[k]) in cache ==>
          r.result.value[k] == Some(cache[Child(uri, names.value.value[k])])))
  {
    var r := Resources(loaders, resolvers, cache, uri);
    var first := FirstResolver(resolvers, uri);
    if first.Ok? && first.value.Some? {
      var names := ListResult(first.value.value, uri);
      if names.Ok? && names.value.Some? {
        var ns := names.value.value;
        assert r == FetchAll(loaders, resolvers, cache, uri, ns, []);
        FetchAllShape(loaders, resolvers, cache, uri, ns, []);
        if r.result.Ok? {
          FetchAllOnePerName(loaders, resolvers, cache, uri, ns);
        }
      } else {
        assert r.cache == cache && r.result.Err?;
      }
    } else {
      assert r.cache == cache && r.result.Err?;
    }
  }

  // ---- the registry ----------------------------------------------------------

  /**
   * The registry object. `loaders` is the HashSet of loaders in its
   * iteration order, `resolvers` the ArrayList of path resolvers, `cache`
   * the HashMap of loaded resources.
   */
  class SimpleFileSystem {
    var loaders: seq<ResourceLoader>
    var resolvers: seq<PathResolver>
    var cache: map<Uri, Obj>

    constructor ()
      ensures loaders == [] && resolvers == [] && cache == map[]
    {
      loaders := [];
      resolvers := [];
      cache := map[];
    }

    /** `getLoader(scheme)`. */
    method GetLoader(scheme: string) returns (r: Option<ResourceLoader>)
      ensures r == FindLoader(loaders, scheme)
    {
      var i := 0;
      while i < |loaders|
        invariant 0 <= i <= |loaders|
        invariant FindLoader(loaders[i..], scheme) == FindLoader(loaders, scheme)
      {
        if EqualsIgnoreCase(loaders[i].scheme, scheme) {
          return Some(loaders[i]);
        }
        assert loaders[i..][1..] == loaders[i + 1..];
        i := i + 1;
      }
      return None;
    }

    /** `registerLoader(loader)`: add to the set first, then load the fallback; the loader stays even if that fails. */
    method RegisterLoader(l: ResourceLoader) returns (r: Result<()>)
      modifies this`loaders, this`cache
      ensures loaders == AddLoader(old(loaders), l)
      ensures Step(r, cache) == LoadFallback(loaders, resolvers, old(cache), l)
    {
      loaders := AddLoader(loaders, l);
      r := LoadFallbackNow(l);
    }

    /** `loadFallback(loader)`. */
    method LoadFallbackNow(l: ResourceLoader) returns (r: Result<()>)
      modifies this`cache
      ensures Step(r, cache) == LoadFallback(loaders, resolvers, old(cache), l)
    {
      match l.fallback {
        case None =>
          r := Ok(());
        case Some(text) =>
          var loaded := LoadResourceText(text);
          if loaded.Ok? {
            r := Ok(());
          } else {
            r := Err(FallbackError(loaded.error));
          }
      }
    }

    /** `getResourceStream(uri)`. */
    method GetResourceStream(uri: Uri) returns (r: Result<Stream>)
      ensures r == FirstStream(resolvers, uri)
    {
      var i := 0;
      while i < |resolvers|
        invariant 0 <= i <= |resolvers|
        invariant FirstStream(resolvers[i..], uri) == FirstStream(resolvers, uri)
      {
        var stream := GetStream(resolvers[i], uri);
        if stream.Err? {
          return Err(stream.error);
        }
        if stream.value.Some? {
          return Ok(stream.value.value);
        }
        assert resolvers[i..][1..] == resolvers[i + 1..];
        i := i + 1;
      }
      return Err(ResourceNotFound);
    }

    /** `getResourceStream(String)`: an unparsable identifier is IllegalArgumentException. */
    method GetResourceStreamText(text: UriText) returns (r: Result<Stream>)
      ensures text.Malformed? ==> r == Err(IllegalArgument)
      ensures text.Parsed? ==> r == FirstStream(resolvers, text.uri)
    {
      match text {
        case Malformed(_) => r := Err(IllegalArgument);
        case Parsed(uri) => r := GetResourceStream(uri);
      }
    }

    /** `loadResource(uri)`. */
    method LoadResource(uri: Uri) returns (r: Result<Obj>)
      modifies this`cache
      ensures Step(r, cache) == Load(loaders, resolvers, old(cache), uri)
    {
      var loader := GetLoader(uri.scheme);
      if loader.None? {
        return Err(LoaderNotFound);
      }
      var stream := GetResourceStream(uri);
      if stream.Err? {
        return Err(stream.error);
      }
      var resource := loader.value.load(stream.value);
      if resource.None? {
        return Err(IllegalState);
      }
      cache := cache[uri := resource.value];
      if stream.value.closeFails {
        return Err(IOError);
      }
      return Ok(resource.value);
    }

    /** `loadResource(String)`: an unparsable identifier is IllegalArgumentException. */
    method LoadResourceText(text: UriText) returns (r: Result<Obj>)
      modifies this`cache
      ensures text.Malformed? ==> r == Err(IllegalArgument) && cache == old(cache)
      ensures text.Parsed? ==> Step(r, cache) == Load(loaders, resolvers, old(cache), text.uri)
    {
      match text {
        case Malformed(_) => r := Err(IllegalArgument);
        case Parsed(uri) => r := LoadResource(uri);
      }
    }

    /** `getResource(uri)`. */
    method GetResource(uri: Uri) returns (r: Result<Option<Obj>>)
      modifies this`cache
      ensures Step(r, cache) == Fetch(loaders, resolvers, old(cache), uri)
    {
      if uri in cache {
        return Ok(Some(cache[uri]));
      }
      var loaded := LoadResource(uri);
      match loaded {
        case Ok(obj) => r := Ok(Some(obj));
        case Err(LoaderNotFound) => r := Err(IllegalArgument);
        case Err(IOError) => r := Err(IllegalArgument);
        case Err(ResourceNotFound) =>
          var loader := GetLoader(uri.scheme);
          match loader {
            case None => r := Err(NullPointer);
            case Some(l) =>
              match l.fallback {
                case None => r := Err(IllegalState);
                case Some(Malformed(_)) => r := Err(IllegalState);
                case Some(Parsed(fallback)) => r := Ok(Get(cache, fallback));
              }
          }
        case Err(e) => r := Err(e);
      }
    }

    /** `getResource(String)`: an unparsable identifier is IllegalArgumentException. */
    method GetResourceText(text: UriText) returns (r: Result<Option<Obj>>)
      modifies this`cache
      ensures text.Malformed? ==> r == Err(IllegalArgument) && cache == old(cache)
      ensures text.Parsed? ==> Step(r, cache) == Fetch(loaders, resolvers, old(cache), text.uri)
    {
      match text {
        case Malformed(_) => r := Err(IllegalArgument);
        case Parsed(uri) => r := GetResource(uri);
      }
    }

    /** `getPathResolver(uri)`. */
    method GetPathResolver(uri: Uri) returns (r: Result<Option<PathResolver>>)
      ensures r == FirstResolver(resolvers, uri)
    {
      var i := 0;
      while i < |resolvers|
        invariant 0 <= i <= |resolvers|
        invariant FirstResolver(resolvers[i..], uri) == FirstResolver(resolvers, uri)
      {
        var found := ExistsInPath(resolvers[i], uri);
        if found.Err? {
          return Err(found.error);
        }
        if found.value {
          return Ok(Some(resolvers[i]));
        }
        assert resolvers[i..][1..] == resolvers[i + 1..];
        i := i + 1;
      }
      return Ok(None);
    }

    /** `getResources(uri)`. */
    method GetResources(uri: Uri) returns (r: Result<seq<Option<Obj>>>)
      modifies this`cache
      ensures Step(r, cache) == Resources(loaders, resolvers, old(cache), uri)
    {
      var resolver := GetPathResolver(uri);
      if resolver.Err? {
        return Err(resolver.error);
      }
      if resolver.value.None? {
        return Err(IllegalArgument);
      }
      var files := List(resolver.value.value, uri);
      if files.Err? {
        return Err(files.error);
      }
      if files.value.None? {
        return Err(NullPointer);
      }
      var names := files.value.value;
      var resources: seq<Option<Obj>> := [];
      var i := 0;
      while i < |names|
        invariant 0 <= i <= |names|
        invariant FetchAll(loaders, resolvers, cache, uri, names[i..], resources) ==
                  FetchAll(loaders, resolvers, old(cache), uri, names, [])
      {
        var resource := GetResource(Child(uri, names[i]));
        if resource.Err? {
          return Err(resource.error);
        }
        resources := resources + [resource.value];
        assert names[i..][1..] == names[i + 1..];
        i := i + 1;
      }
      return Ok(resources);
    }

    /** `getResources(String)`: an unparsable identifier is IllegalArgumentException. */
    method GetResourcesText(text: UriText) returns (r: Result<seq<Option<Obj>>>)
      modifies this`cache
      ensures text.Malformed? ==> r == Err(IllegalArgument) && cache == old(cache)
      ensures text.Parsed? ==> Step(r, cache) == Resources(loaders, resolvers, old(cache), text.uri)
    {
      match text {
        case Malformed(_) => r := Err(IllegalArgument);
        case Parsed(uri) => r := GetResources(uri);
      }
    }

    /** `addPathResolver(resolver)`: appended, so it is consulted last. */
    method AddPathResolver(p: PathResolver)
      modifies this`resolvers
      ensures resolvers == old(resolvers) + [p]
      ensures forall uri :: (FirstStream(resolvers, uri) ==
        if FirstStream(old(resolvers), uri) == Err(ResourceNotFound) then FirstStream([p], uri) else FirstStream(old(resolvers), uri))
    {
      var previous := resolvers;
      resolvers := resolvers + [p];
      forall uri
        ensures FirstStream(resolvers, uri) ==
          if FirstStream(previous, uri) == Err(ResourceNotFound) then FirstStream([p], uri) else FirstStream(previous, uri)
      {
        AppendedResolverComesLast(previous, p, uri);
      }
    }

    /** `removePathResolver(resolver)`: the first occurrence goes, the rest keep their order. */
    method RemovePathResolver(p: PathResolver)
      modifies this`resolvers
      ensures resolvers == RemoveFirst(old(resolvers), p)
      ensures p !in old(resolvers) ==> resolvers == old(resolvers)
    {
      if p !in resolvers {
        RemoveFirstAbsent(resolvers, p);
      }
      resolvers := RemoveFirst(resolvers, p);
    }
  }
}

=== FILE: jar_resolver.dfy ===
/**
 * JarFilePathResolver: resources of host `h` live in the archive
 * `<directory>/h.jar`; a path `/a/b` names the entry `a/b`.
 */
module JarResolver {
  import opened Types
  import opened Archives

  /** `getJar(host)`: the archive `host.jar` in the directory, null when absent, IOException when unreadable. */
  function GetJar(dir: ArchiveDir, host: string): (r: Result<Option<seq<Entry>>>)
    ensures r.Ok? && r.value.Some? ==> host + ".jar" in dir && dir[host + ".jar"] == Archive(r.value.value)
    ensures r == Ok(None) <==> host + ".jar" !in dir
    ensures r.Err? <==> host + ".jar" in dir && dir[host + ".jar"].Corrupt?
    ensures r.Err? ==> r.error == IOError
  {
    Open(dir, host + ".jar")
  }

  /**
   * `existsInPath(host, path)`. An IOException from opening the jar is
   * logged and gives false; `path.substring(1)` is evaluated before the
   * (possibly null) jar is dereferenced, so an empty path fails first and a
   * missing jar then throws NullPointerException.
   */
  function ExistsInPath(dir: ArchiveDir, host: string, path: string): (r: Result<bool>)
    ensures r == Ok(true) <==>
      host + ".jar" in dir && dir[host + ".jar"].Archive? && |path| > 0 &&
      exists i :: 0 <= i < |dir[host + ".jar"].entries| && dir[host + ".jar"].entries[i].name == path[1..]
    ensures r == Err(NullPointer) <==> host + ".jar" !in dir && |path| > 0
    ensures host + ".jar" in dir && dir[host + ".jar"].Corrupt? ==> r == Ok(false)
    ensures r == Err(IndexOutOfBounds) <==> !(host + ".jar" in dir && dir[host + ".jar"].Corrupt?) && |path| == 0
    ensures r.Err? ==> r.error in {NullPointer, IndexOutOfBounds}
  {
    var jar := GetJar(dir, host);
    if jar.Err? then Ok(false)
    else if |path| == 0 then Err(IndexOutOfBounds)
    else if jar.value.None? then Err(NullPointer)
    else Ok(Lookup(jar.value.value, path[1..]).Some?)
  }

  /**
   * `getStream(host, path)`: the stream of the entry named `path[1..]`;
   * null when the jar is missing or unreadable or has no such entry.
   */
  function GetStream(dir: ArchiveDir, host: string, path: string): (r: Result<Option<Stream>>)
    ensures r.Ok? && r.value.Some? <==> ExistsInPath(dir, host, path) == Ok(true)
    ensures r.Ok? && r.value.Some? ==>
      exists i :: 0 <= i < |dir[host + ".jar"].entries| &&
        dir[host + ".jar"].entries[i].name == path[1..] && dir[host + ".jar"].entries[i].data == r.value.value
    ensures r.Err? <==> host + ".jar" in dir && dir[host + ".jar"].Archive? && |path| == 0
    ensures r.Err? ==> r.error == IndexOutOfBounds
  {
    var jar := GetJar(dir, host);
    if jar.Err? || jar.value.None? then Ok(None)
    else if |path| == 0 then Err(IndexOutOfBounds)
    else match Lookup(jar.value.value, path[1..])
      case None => Ok(None)
      case Some(entry) => Ok(Some(entry.data))
  }

  /**
   * `list(host, path)`: the non-directory entries under `path[1..]`, in
   * enumeration order, with that prefix removed. A missing jar throws
   * IllegalArgumentException; an IOException is logged and gives null.
   */
  method List(dir: ArchiveDir, host: string, path: string) returns (r: Result<Option<seq<string>>>)
    ensures r == ListResult(GetJar(dir, host), path)
  {
    var jar := GetJar(dir, host);
    if jar.Err? {
      return Ok(None);
    }
    if jar.value.None? {
      return Err(IllegalArgument);
    }
    var entries := jar.value.value;
    if |path| == 0 {
      return Err(IndexOutOfBounds);
    }
    var names := ListEntries(entries, path[1..]);
    return Ok(Some(names));
  }

  /**
   * Every name `list` reports can be fetched back: the resource at
   * `path + name` exists and has a stream.
   */
  lemma ListedNamesResolve(dir: ArchiveDir, host: string, path: string, name: string)
    requires ListResult(GetJar(dir, host), path).Ok? && ListResult(GetJar(dir, host), path).value.Some?
    requires name in ListResult(GetJar(dir, host), path).value.value
    ensures ExistsInPath(dir, host, path + name) == Ok(true)
    ensures GetStream(dir, host, path + name).Ok? && GetStream(dir, host, path + name).value.Some?
  {
    var entries := GetJar(dir, host).value.value;
    var names := Listing(entries, path[1..]);
    ListingExactly(entries, path[1..]);
    var k :| 0 <= k < |names| && names[k] == name;
    assert ListedAs(entries, path[1..], names[k]);
    assert (path + name)[1..] == path[1..] + name;
  }
}

=== FILE: path_resolver.dfy ===
/**
 * ResourcePathResolver: the three resolver kinds behind one interface, with
 * the URI overloads that pass `uri.getHost()` and `uri.getPath()` on.
 */
module PathResolvers {
  import opened Types
  import Archives
  import JarResolver
  import ZipResolver
  import DirectoryResolver

  /** What a resolver reads from: a plain directory tree, or a directory of .jar or of .zip archives. */
  datatype Backend =
    | Files(tree: DirectoryResolver.Tree)
    | Jars(jars: Archives.ArchiveDir)
    | Zips(zips: Archives.ArchiveDir)

  /**
   * A resolver object. None of the resolver classes overrides `equals`, so
   * the registry tells resolvers apart by identity; the model keeps that by
   * making each one an object whose only, final, field is its backend.
   */
  class PathResolver {
    const backend: Backend

    constructor (backend: Backend)
      ensures this.backend == backend
    {
      this.backend := backend;
    }
  }

  /**
   * `existsInPath(uri)`. Only the JAR resolver can throw
   * NullPointerException (a missing jar), and only the archive resolvers
   * fail on an empty path.
   */
  function ExistsInPath(r: PathResolver, uri: Uri): (b: Result<bool>)
    ensures b.Err? ==> b.error in {NullPointer, IndexOutOfBounds}
    ensures b == Err(NullPointer) ==> r.backend.Jars?
    ensures b == Err(IndexOutOfBounds) ==> !r.backend.Files? && uri.path == ""
    ensures r.backend.Files? ==> b.Ok?
  {
    match r.backend
    case Files(tree) => Ok(DirectoryResolver.ExistsInPath(tree, uri.host, uri.path))
    case Jars(jars) => JarResolver.ExistsInPath(jars, uri.host, uri.path)
    case Zips(zips) => ZipResolver.ExistsInPath(zips, uri.host, uri.path)
  }

  /**
   * `getStream(uri)`: a stream, null, or (archive resolvers, empty path)
   * StringIndexOutOfBoundsException. A stream is only ever produced for a
   * resource the same resolver says exists.
   */
  function GetStream(r: PathResolver, uri: Uri): (s: Result<Option<Stream>>)
    ensures s.Err? ==> s.error == IndexOutOfBounds && uri.path == "" && !r.backend.Files?
    ensures s.Ok? && s.value.Some? ==> ExistsInPath(r, uri) == Ok(true)
  {
    match r.backend
    case Files(tree) => Ok(DirectoryResolver.GetStream(tree, uri.host, uri.path))
    case Jars(jars) => JarResolver.GetStream(jars, uri.host, uri.path)
    case Zips(zips) => ZipResolver.GetStream(zips, uri.host, uri.path)
  }

  /**
   * The outcome of `list(uri)`: names, null (an archive that does not open),
   * or an exception. Only archive resolvers return null.
   */
  function ListResult(r: PathResolver, uri: Uri): (l: Result<Option<seq<string>>>)
    ensures l == Ok(None) ==> !r.backend.Files?
    ensures l.Err? ==> l.error in {IllegalArgument, IndexOutOfBounds, NullPointer}
  {
    match r.backend
    case Files(tree) =>
      (match DirectoryResolver.List(tree, uri.host, uri.path)
       case Ok(names) => Ok(Some(names))
       case Err(e) => Err(e))
    case Jars(jars) => Archives.ListResult(JarResolver.GetJar(jars, uri.host), uri.path)
    case Zips(zips) => Archives.ListResult(ZipResolver.GetZip(zips, uri.host), uri.path)
  }

  /** `list(uri)`, running the archive resolvers' list loops. */
  method List(r: PathResolver, uri: Uri) returns (l: Result<Option<seq<string>>>)
    ensures l == ListResult(r, uri)
  {
    match r.backend
    case Files(tree) =>
      var names := DirectoryResolver.List(tree, uri.host, uri.path);
      l := if names.Ok? then Ok(Some(names.value)) else Err(names.error);
    case Jars(jars) =>
      l := JarResolver.List(jars, uri.host, uri.path);
    case Zips(zips) =>
      l := ZipResolver.List(zips, uri.host, uri.path);
  }
}

=== FILE: resource_loader.dfy ===
/**
 * ResourceLoader: the scheme a loader serves, its optional fallback
 * identifier and its decoding function, with Java's `equals`, `hashCode`
 * and `toString`.
 */
module ResourceLoaders {
  import opened Types

  /**
   * A loader. `fallback` is the string given to the constructor (None for
   * null); `load` stands for the abstract `load(InputStream)`, with None for
   * a null result. Both fields are final in the source.
   */
  datatype ResourceLoader = ResourceLoader(scheme: string, fallback: Option<UriText>, load: Stream -> Option<Obj>)

  /** The one-argument constructor: a loader without fallback. */
  function WithoutFallback(scheme: string, load: Stream -> Option<Obj>): (l: ResourceLoader)
    ensures l.scheme == scheme && l.fallback.None? && l.load == load
  {
    ResourceLoader(scheme, None, load)
  }

  // ---- String.equalsIgnoreCase -------------------------------------------

  /** Character.toUpperCase restricted to ASCII letters. */
  function UpperChar(c: char): char
  {
    if 'a' <= c <= 'z' then (c as int - 32) as char else c
  }

  /** The upper-case form of a string, character by character. */
  function UpperCase(s: string): (u: string)
    ensures |u| == |s|
    ensures forall i :: 0 <= i < |s| ==> u[i] == UpperChar(s[i])
  {
    seq(|s|, i requires 0 <= i < |s| => UpperChar(s[i]))
  }

  /**
   * String.equalsIgnoreCase: equal lengths and, position by position, equal
   * characters or equal upper-case characters.
   */
  predicate EqualsIgnoreCase(s: string, t: string)
    ensures EqualsIgnoreCase(s, t) <==> |s| == |t| && forall i :: 0 <= i < |s| ==> UpperChar(s[i]) == UpperChar(t[i])
    decreases |s|
  {
    |s| == |t| &&
    (|s| == 0 ||
     ((s[0] == t[0] || UpperChar(s[0]) == UpperChar(t[0])) &&
      assert forall i :: 1 <= i < |s| ==> s[1..][i - 1] == s[i] && t[1..][i - 1] == t[i];
      EqualsIgnoreCase(s[1..], t[1..])))
  }

  /** EqualsIgnoreCase compares the upper-case forms. */
  lemma EqualsIgnoreCaseIffSameUpperCase(s: string, t: string)
    ensures EqualsIgnoreCase(s, t) <==> UpperCase(s) == UpperCase(t)
  {
    if UpperCase(s) == UpperCase(t) {
      forall i | 0 <= i < |s| ensures UpperChar(s[i]) == UpperChar(t[i]) {
        assert UpperCase(s)[i] == UpperCase(t)[i];
      }
    }
  }

  // ---- equals / hashCode / toString --------------------------------------

  /** `a.equals(b)`: b's scheme equals a's ignoring case; fallback and load play no part. */
  predicate Equals(a: ResourceLoader, b: ResourceLoader)
    ensures Equals(a, b) ==> |a.scheme| == |b.scheme|
    ensures Equals(a, b) <==> UpperCase(a.scheme) == UpperCase(b.scheme)
  {
    EqualsIgnoreCase(b.scheme, a.scheme)
  }

  /** Loader equality is scheme equality up to case, and an equivalence relation. */
  lemma EqualsIsSchemeEquivalence(a: ResourceLoader, b: ResourceLoader, c: ResourceLoader)
    ensures Equals(a, b) <==> UpperCase(a.scheme) == UpperCase(b.scheme)
    ensures Equals(a, a)
    ensures Equals(a, b) <==> Equals(b, a)
    ensures Equals(a, b) && Equals(b, c) ==> Equals(a, c)
  {
    EqualsIgnoreCaseIffSameUpperCase(b.scheme, a.scheme);
    EqualsIgnoreCaseIffSameUpperCase(a.scheme, b.scheme);
    EqualsIgnoreCaseIffSameUpperCase(a.scheme, a.scheme);
    EqualsIgnoreCaseIffSameUpperCase(c.scheme, b.scheme);
    EqualsIgnoreCaseIffSameUpperCase(c.scheme, a.scheme);
  }

  const TwoTo32: int := 0x1_0000_0000

  /** The two's-complement `int` whose bits are `x` modulo 2^32. */
  function ToInt32(x: int): (r: int)
    ensures -0x8000_0000 <= r < 0x8000_0000
    ensures (r - x) % TwoTo32 == 0
  {
    var u := x % TwoTo32;
    if u < 0x8000_0000 then u else u - TwoTo32
  }

  /**
   * String.hashCode modulo 2^32: h = 31 * h + c over the characters
   * (each character taken as one 16-bit code unit).
   */
  function StringHash(s: string): (h: nat)
    ensures h < TwoTo32
  {
    if |s| == 0 then 0 else (31 * StringHash(s[..|s| - 1]) + s[|s| - 1] as int) % TwoTo32
  }

  /** `new HashCodeBuilder().append(scheme).build()`: 17 * 37 + scheme.hashCode() in 32-bit arithmetic. */
  function HashCode(l: ResourceLoader): (h: int)
    ensures -0x8000_0000 <= h < 0x8000_0000
    ensures (h - 629 - StringHash(l.scheme)) % TwoTo32 == 0
  {
    ToInt32(17 * 37 + StringHash(l.scheme))
  }

  /**
   * The hash reads the scheme with its case, so two loaders that are equal
   * can hash differently: "png" and "PNG".
   */
  lemma CaseVariantsEqualButHashDiffer(load: Stream -> Option<Obj>)
    ensures Equals(WithoutFallback("png", load), WithoutFallback("PNG", load))
    ensures HashCode(WithoutFallback("png", load)) != HashCode(WithoutFallback("PNG", load))
  {
    assert "png"[..2] == "pn" && "pn"[..1] == "p" && "p"[..0] == "";
    assert "PNG"[..2] == "PN" && "PN"[..1] == "P" && "P"[..0] == "";
    assert StringHash("p") == 112 && StringHash("pn") == 3582 && StringHash("png") == 111145;
    assert StringHash("P") == 80 && StringHash("PN") == 2558 && StringHash("PNG") == 79369;
    assert UpperChar('p') == 'P' && UpperChar('n') == 'N' && UpperChar('g') == 'G';
  }

  /** `toString()`: "ResourceLoader(" + scheme + ")"; the scheme can be read back from it. */
  function ToString(l: ResourceLoader): (s: string)
    ensures |s| == |l.scheme| + 16
    ensures s[..15] == "ResourceLoader(" && s[|s| - 1] == ')'
    ensures s[15..|s| - 1] == l.scheme
  {
    "ResourceLoader(" + l.scheme + ")"
  }
}

=== FILE: types.dfy ===
/** Values shared by the resource loaders, the path resolvers and the file system registry. */
module Types {

  /** Java's nullable reference: `None` stands for `null`. */
  datatype Option<T> = None | Some(value: T)

  /** The Java exceptions the modelled code raises or lets through. */
  datatype Exception =
    | LoaderNotFound      // LoaderNotFoundException: no loader for the scheme
    | ResourceNotFound    // ResourceNotFoundException: no resolver produced a stream
    | IOError             // java.io.IOException
    | IllegalArgument     // IllegalArgumentException
    | IllegalState        // IllegalStateException
    | NullPointer         // NullPointerException from dereferencing a null result
    | IndexOutOfBounds    // StringIndexOutOfBoundsException from `path.substring(1)` on ""

  /** A call either returns a value or throws one of the exceptions above. */
  datatype Result<T> = Ok(value: T) | Err(error: Exception)

  /** A resource identifier as java.net.URI has already parsed it. */
  datatype Uri = Uri(scheme: string, host: string, path: string)

  /** A string given to `new URI(...)`: either it parses, or the constructor throws URISyntaxException. */
  datatype UriText = Parsed(uri: Uri) | Malformed(text: string)

  /**
   * An open input stream, as an opaque token. `closeFails` records whether
   * closing it throws IOException.
   */
  datatype Stream = Stream(token: nat, closeFails: bool)

  /** A loaded resource object, opaque to the registry. */
  datatype Obj = Obj(token: nat)

  /** `map.get(key)`: the value, or null when the key is absent. */
  function Get(m: map<Uri, Obj>, key: Uri): (r: Option<Obj>)
    ensures r.Some? <==> key in m
    ensures r.Some? ==> r.value == m[key]
  {
    if key in m then Some(m[key]) else None
  }
}

=== FILE: zip_resolver.dfy ===
/**
 * ZipFilePathResolver: resources of host `h` live in the archive
 * `<directory>/h.zip`; a path `/a/b` names the entry `a/b`.
 */
module ZipResolver {
  import opened Types
  import opened Archives

  /** `getZip(host)`: the archive `host.zip` in the directory, null when absent, IOException when unreadable. */
  function GetZip(dir: ArchiveDir, host: string): (r: Result<Option<seq<Entry>>>)
    ensures r.Ok? && r.value.Some? ==> host + ".zip" in dir && dir[host + ".zip"] == Archive(r.value.value)
    ensures r == Ok(None) <==> host + ".zip" !in dir
    ensures r.Err? <==> host + ".zip" in dir && dir[host + ".zip"].Corrupt?
    ensures r.Err? ==> r.error == IOError
  {
    Open(dir, host + ".zip")
  }

  /**
   * `existsInPath(host, path)`: false when the zip is missing (checked before
   * the path is touched) or unreadable; otherwise whether an entry is named
   * `path[1..]`.
   */
  function ExistsInPath(dir: ArchiveDir, host: string, path: string): (r: Result<bool>)
    ensures r == Ok(true) <==>
      host + ".zip" in dir && dir[host + ".zip"].Archive? && |path| > 0 &&
      exists i :: 0 <= i < |dir[host + ".zip"].entries| && dir[host + ".zip"].entries[i].name == path[1..]
    ensures host + ".zip" !in dir ==> r == Ok(false)
    ensures r.Err? <==> host + ".zip" in dir && dir[host + ".zip"].Archive? && |path| == 0
    ensures r.Err? ==> r.error == IndexOutOfBounds
  {
    var zip := GetZip(dir, host);
    if zip.Err? || zip.value.None? then Ok(false)
    else if |path| == 0 then Err(IndexOutOfBounds)
    else Ok(Lookup(zip.value.value, path[1..]).Some?)
  }

  /**
   * `getStream(host, path)`: the stream of the entry named `path[1..]`;
   * null when the zip is missing or unreadable or has no such entry.
   */
  function GetStream(dir: ArchiveDir, host: string, path: string): (r: Result<Option<Stream>>)
    ensures r.Ok? && r.value.Some? <==> ExistsInPath(dir, host, path) == Ok(true)
    ensures r.Ok? && r.value.Some? ==>
      exists i :: 0 <= i < |dir[host + ".zip"].entries| &&
        dir[host + ".zip"].entries[i].name == path[1..] && dir[host + ".zip"].entries[i].data == r.value.value
    ensures r.Err? <==> ExistsInPath(dir, host, path).Err?
  {
    var zip := GetZip(dir, host);
    if zip.Err? || zip.value.None? then Ok(None)
    else if |path| == 0 then Err(IndexOutOfBounds)
    else match Lookup(zip.value.value, path[1..])
      case None => Ok(None)
      case Some(entry) => Ok(Some(entry.data))
  }

  /**
   * `list(host, path)`: the non-directory entries under `path[1..]`, in
   * enumeration order, with that prefix removed. A missing zip throws
   * IllegalArgumentException; an IOException is logged and gives null.
   */
  method List(dir: ArchiveDir, host: string, path: string) returns (r: Result<Option<seq<string>>>)
    ensures r == ListResult(GetZip(dir, host), path)
  {
    var zip := GetZip(dir, host);
    if zip.Err? {
      return Ok(None);
    }
    if zip.value.None? {
      return Err(IllegalArgument);
    }
    var entries := zip.value.value;
    if |path| == 0 {
      return Err(IndexOutOfBounds);
    }
    var names := ListEntries(entries, path[1..]);
    return Ok(Some(names));
  }

  /**
   * A listing is never longer than the archive and never reports a
   * directory entry: each name comes from a non-directory entry whose name
   * is the path (leading '/' removed) followed by the reported name.
   */
  lemma ListingHasNoDirectories(dir: ArchiveDir, host: string, path: string)
    requires ListResult(GetZip(dir, host), path).Ok? && ListResult(GetZip(dir, host), path).value.Some?
    ensures var entries := dir[host + ".zip"].entries;
      var names := ListResult(GetZip(dir, host), path).value.value;
      |names| <= |entries| &&
      forall k :: 0 <= k < |names| ==> ListedAs(entries, path[1..], names[k])
  {
    var entries := dir[host + ".zip"].entries;
    assert GetZip(dir, host) == Ok(Some(entries));
    var names := Listing(entries, path[1..]);
    assert ListResult(GetZip(dir, host), path).value.value == names;
    ListingExactly(entries, path[1..]);
  }

  /**
   * Every name `list` reports can be fetched back: the resource at
   * `path + name` exists and has a stream.
   */
  lemma ListedNamesResolve(dir: ArchiveDir, host: string, path: string, name: string)
    requires ListResult(GetZip(dir, host), path).Ok? && ListResult(GetZip(dir, host), path).value.Some?
    requires name in ListResult(GetZip(dir, host), path).value.value
    ensures ExistsInPath(dir, host, path + name) == Ok(true)
    ensures GetStream(dir, host, path + name).Ok? && GetStream(dir, host, path + name).value.Some?
  {
    var entries := GetZip(dir, host).value.value;
    var names := Listing(entries, path[1..]);
    ListingExactly(entries, path[1..]);
    var k :| 0 <= k < |names| && names[k] == name;
    assert ListedAs(entries, path[1..], names[k]);
    assert (path + name)[1..] == path[1..] + name;
  }
}
